=== FILE: README.md ===
# Request and item status state machine

A Dafny model of the core of an inventory-request server. End users create
requests for items, each addressed to a receiver. Receivers fulfil the items,
mark them out of stock, or hand single items to another receiver. That
receiver then accepts the item (it becomes fulfilled) or rejects it (it is
pending again). A request's status is derived from the statuses of its
items:

- `pending` when no item is fulfilled;
- `approved` when every item is fulfilled;
- `partially_fulfilled` when some items are fulfilled but not all.

The HTTP and database plumbing is replaced by an immutable store:

- a map of users to their roles;
- a map of item ids to items;
- a map of request ids to requests;
- two counters that hand out fresh ids (an id below its counter is *allocated*).

Ids are natural numbers allocated in increasing order. The database's
natural order, which `findOne` and `find` return, is modelled as ascending
id. Every route handler is a pure function. It takes the store and the
authenticated principal (`None` when there is none) and returns a `Reply`:
the new store and either a value or an error kind (`Unauthorized`,
`Forbidden`, `NotFound`, `ValidationError`, or `InternalError` for an
exception the handler's catch-all answers with status 500). The reply
carries the store even on failure, because some handlers fail after they
have already written.

Files and modules:

- `types.dfy` (`Types`): ids, `Option`, `Result`, error kinds, roles, principals. `RawId` is an id as it arrives in a body or path: missing (falsy), malformed, or well-formed.
- `item.dfy` (`ItemModel`): the item schema. It holds the status and type enums, the defaults, the validators of `Item.create`, and the type-enum parser.
- `request.dfy` (`RequestModel`): the request schema and its defaults.
- `aggregator.dfy` (`Aggregator`): `calculateRequestStatus` and the unguarded copy inlined in the accept and reject handlers.
- `transitions.dfy` (`Transitions`): the four item transitions (propose reassignment, direct update, accept, reject) as functions on one item.
- `store.dfy` (`StoreModel`): the store, its well-formedness `Valid`, `populate('items')`, `Request.findOne({ items })`, and the predicate "stored status equals derived status".
- `workflow.dfy` (`Workflow`): the `/request/add`, `/request/update` and `/request/all` handlers.
- `reassignment.dfy` (`Reassignment`): the `/reassignment/all`, `/accept/:itemId` and `/reject/:itemId` handlers.
- `properties.dfy` (`Properties`): lemmas that relate several operations.
- `scenarios.dfy` (`Scenarios`): worked scenarios on a concrete store.

### Where the code departs from the intended behaviour (the model follows the code)

Each point names the intended behaviour, the line of code that departs from it, and the member that states what the code does.

- **Appending items on update.** The intended behaviour is that a new-item descriptor adds the item to the request. `server/routers/RequestRoutes.js:233` creates the item. `:239` pushes its id onto the in-memory request read at `:181`, which is never saved: `:244` reads the request again. The item exists, but no request names it (`Properties.UpdateOrphansAppendedItem`).
- **The reassignment rule.** The intended rule is that an item names a target exactly when its status is `reassigned`. Propose (`RequestRoutes.js:37-41`), accept (`reassignmentRoutes.js:79-83`) and reject (`reassignmentRoutes.js:144-148`) keep it. The direct update at `RequestRoutes.js:224-229` does not, because it never writes `reassignedTo` (`Transitions.DirectUpdateBreaksRule`).
- **Who may propose a reassignment.** The intended behaviour is that only the request's receiver proposes, and never to itself. `RequestRoutes.js:209-222` lets anyone who passed the checks at `:185-200` propose, the owner included. It does not compare the target with the caller (`Workflow.ApplyDescriptor`).
- **Accept and reject checks.** The intended precondition is an item in status `reassigned`. `reassignmentRoutes.js:74` and `:139` check only `reassignedTo` (`Reassignment.Resolve`).
- **Unknown item ids in an update.** The intended answer is NotFound. `RequestRoutes.js:204-208` skips a descriptor whose id is not among the request's items (`Workflow.ApplyDescriptor`).
- **Failed reassignment targets.** `RequestRoutes.js:211-215` answers 400 in the middle of the loop. The writes of earlier descriptors stay, and the status recompute at `:244-260` never runs (`Workflow.ApplyDescriptorsStopsAtFirstFailure`, `Workflow.Update`).
- **Failed item creation.** The intended outcome of a failed create is that nothing is stored. `RequestRoutes.js:126-145` starts every `Item.create` through `Promise.all`. Each item that passes its own checks is therefore created even when another fails and no request is made (`Workflow.CreateItemsStoresPassing`, `Workflow.Create`).
- **Receiver of a new request.** The intended receiver is a user with the receiver role. `RequestRoutes.js:121-124` looks up the id only and accepts any existing user, an end user included (`Workflow.Create`).
- **Receiver written by an update.** The intended receiver is an existing receiver. `RequestRoutes.js:252-254` writes any well-formed id without looking it up (`Workflow.Update`).
- **Quantity bound.** The schema's minimum at `server/models/item.js:21` is meant to hold for every stored item. The direct update at `RequestRoutes.js:224-229` runs no validators, so it can store a negative quantity (`Transitions.DirectUpdateBreaksQuantityBound`).

## Model

| member | source | states |
|---|---|---|
| `Aggregator.CalculateRequestStatus` | server/routers/RequestRoutes.js:9-27 | `approved` exactly when the list is non-empty and every item is fulfilled; `partially_fulfilled` exactly when some but not all are; `pending` exactly when none is, the empty list included; out-of-stock and reassigned items count as not fulfilled |
| `Aggregator.Statuses` | server/routers/RequestRoutes.js:14 | the status list has one entry per item, each item's status at its position |
| `Aggregator.FulfilledCount` | server/routers/RequestRoutes.js:15-17 | the fulfilled count never exceeds the list length |
| `Aggregator.CountIsLengthIffAll` | server/routers/RequestRoutes.js:18-21 | the fulfilled count equals the total exactly when every item is fulfilled |
| `Aggregator.CountIsZeroIffNone` | server/routers/RequestRoutes.js:22-25 | the fulfilled count is zero exactly when no item is fulfilled |
| `Aggregator.InlineRequestStatus` | server/routers/reassignmentRoutes.js:91-102 | the inline copy: `approved` exactly when every item is fulfilled, which includes the empty list; otherwise the same rule as the guarded version |
| `Aggregator.InlineAgreesOnNonEmpty` | server/routers/reassignmentRoutes.js:155-165 | the inline copy and `calculateRequestStatus` agree exactly on non-empty lists |
| `Aggregator.SingleChangeMonotone` | server/routers/RequestRoutes.js:20-25 | setting one item to a non-fulfilled status never yields `approved`; setting it to fulfilled never yields `pending` |
| `ItemModel.ParseType` | server/models/item.js:13-17 | a type string is accepted exactly when it is the spelling of one of stationary, electronics, furniture, other |
| `ItemModel.Construct` | server/models/item.js:3-23 | `Item.create` succeeds exactly when the name is non-empty and the quantity is at least 0; type defaults to `other`, status to `pending`; a new item has no reassignment target and no notes |
| `RequestModel.NewRequest` | server/models/request.js:3-33 | a new request is `pending`, is stamped with the creation time, and keeps its name, owner, receiver and ordered item ids |
| `Transitions.Propose` | server/routers/RequestRoutes.js:29-41 | the item becomes `reassigned` to the target with the reason as notes; it keeps the reassignment rule; name, type and quantity are unchanged |
| `Transitions.Accept` | server/routers/reassignmentRoutes.js:79-83 | the item becomes `fulfilled`, its target is cleared and its notes emptied; it keeps the rule; its goods are unchanged |
| `Transitions.Reject` | server/routers/reassignmentRoutes.js:144-148 | the item becomes `pending`, its target is cleared and its notes emptied; it keeps the rule; its goods are unchanged |
| `Transitions.DirectUpdate` | server/routers/RequestRoutes.js:224-229 | a non-empty name, a supplied type, a non-zero quantity and a supplied status are each written; every field supplied falsy keeps the snapshot's value, so a quantity of 0 keeps the old quantity; `reassignedTo` and `notes` are untouched |
| `Transitions.DirectUpdateIdempotent` | server/routers/RequestRoutes.js:224-229 | applying the same patch twice gives the same item as applying it once |
| `Transitions.EmptyPatchIsIdentity` | server/routers/RequestRoutes.js:225-228 | a patch whose values are all falsy (empty name, absent or zero quantity) changes nothing |
| `Transitions.DirectUpdateBreaksRule` | server/routers/RequestRoutes.js:228 | counterexamples: the direct update can set `reassigned` with no target, or leave a target on a fulfilled item |
| `Transitions.DirectUpdateBreaksQuantityBound` | server/routers/RequestRoutes.js:227 | counterexample: the direct update stores a negative quantity that the schema's minimum refuses on create |
| `StoreModel.Populate` | server/routers/RequestRoutes.js:244 | the populated list is the named items in order when all ids resolve, never longer than the id list, and contains every resolving item |
| `StoreModel.FindFrom` | server/routers/reassignmentRoutes.js:86 | the result is the first request at or after the start, in natural order, whose item list names the item; none exists when it returns nothing |
| `StoreModel.FindContaining` | server/routers/reassignmentRoutes.js:150 | `findOne({ items: itemId })`: a request that names the item and no earlier one does; on a valid store, no request names the item when nothing is found |
| `Workflow.Concerns` | server/routers/RequestRoutes.js:185-200 | an end user is concerned by the requests it owns and a receiver by the requests assigned to it; the same test decides who may update a request and which requests `/all` lists (`:64-80`) |
| `Workflow.IsTrimmed` | server/routers/RequestRoutes.js:110 | the characters `trim` removes: the ECMAScript white space and line terminators |
| `Workflow.Blank` | server/routers/RequestRoutes.js:110 | a name is blank when every character is one `trim` removes, the empty name included |
| `Workflow.TrimStart` | server/routers/RequestRoutes.js:110 | the result is a suffix of the input; every character dropped is one `trim` removes, and a non-empty result does not start with one |
| `Workflow.TrimEnd` | server/routers/RequestRoutes.js:110 | the result is a prefix of the input; every character dropped is one `trim` removes, and a non-empty result does not end with one |
| `Workflow.BlankIffTrimEmpty` | server/routers/RequestRoutes.js:110 | `!name.trim()` holds exactly for the blank names |
| `Workflow.CheckItem` | server/routers/RequestRoutes.js:128-142 | an item input passes exactly when it is an object with a non-empty name, a numeric quantity of at least 0, and a type from the enum; the item built from it is `pending`, schema-valid and unassigned |
| `Workflow.CreateItems` | server/routers/RequestRoutes.js:126-145 | the batch succeeds exactly when every input passes, and then item k holds input k's checked item; ids are consecutive fresh ids in input order; existing items, users and requests are untouched |
| `Workflow.CreateItemsStoresPassing` | server/routers/RequestRoutes.js:126-145 | whether or not the batch succeeds, the created ids hold exactly the checked items of the passing inputs, in input order |
| `Workflow.CreateAdmissible` | server/routers/RequestRoutes.js:101-124 | the checks before any item is created: an end-user principal, a non-blank name, a well-formed receiver id that names an existing user, and a non-empty item list |
| `Workflow.Create` | server/routers/RequestRoutes.js:97-165 | Unauthorized without a principal; Forbidden for a non-end-user; ValidationError with nothing written for a blank name, a missing or malformed receiver or an empty list; NotFound with nothing written for an unknown receiver; ValidationError with the passing items kept when an item fails; users and every allocated item are never changed; otherwise success with a new `pending` request owned by the actor, its item ids in input order |
| `Workflow.Snapshot` | server/routers/RequestRoutes.js:181 | the request as read before the loop: exactly the ids it names that resolve to items, each with the item as stored then |
| `Workflow.ApplyDescriptor` | server/routers/RequestRoutes.js:202-240 | a `null` element is an internal error, as reading its `id` throws; ids outside the request are skipped; a reassignment to a well-formed target succeeds exactly when the target is a receiver and writes `Propose`; a malformed target is an internal error; otherwise the item gets the direct update against the snapshot, which always succeeds; a well-formed id never allocates an item; a descriptor without a well-formed id creates an item from its name, type, quantity and status (default `pending`) at the next fresh id when name, type and quantity are truthy, fails with an internal error on a negative quantity, and does nothing otherwise; no other allocated item changes; a failure writes nothing; requests are never touched |
| `Workflow.ApplyDescriptorsAppend` | server/routers/RequestRoutes.js:201-242 | descriptors run in list order: a descriptor appended to the list runs after the others, on their store, and only when none of them failed |
| `Workflow.ApplyDescriptorsStopsAtFirstFailure` | server/routers/RequestRoutes.js:211-215 | a failing loop failed at some descriptor k: the prefix before k succeeded, and the answer is k's failure with the prefix's writes kept |
| `Workflow.ApplyDescriptors` | server/routers/RequestRoutes.js:201-242 | no item disappears and new items get fresh ids; allocated items outside the request are unchanged; requests and users are untouched; a failure can only be a validation or internal error |
| `Workflow.Update` | server/routers/RequestRoutes.js:167-278 | Forbidden exactly when an end user is not the owner or a receiver is not the assigned receiver, with nothing changed; an authorized update succeeds exactly when its descriptor loop does, with the loop's items; allocated items outside the request are unchanged; a loop failure is answered with the loop's store and error; on success the stored status equals the status derived from the post-update items; the item list, owner and creation time are unchanged; only a truthy name and a well-formed receiver are written; other requests are untouched |
| `Workflow.ConcerningFrom` | server/routers/RequestRoutes.js:64-80 | each request the principal owns (end user) or is assigned (receiver) appears exactly once, and nothing else does |
| `Workflow.InsertNewest` | server/routers/RequestRoutes.js:67 | insertion adds exactly the one element to the multiset of the list |
| `Workflow.InsertNewestSorted` | server/routers/RequestRoutes.js:80 | inserting into a newest-first list keeps it newest-first |
| `Workflow.SortNewest` | server/routers/RequestRoutes.js:78-80 | the sorted list is a permutation of its input, ordered by non-increasing creation time |
| `Workflow.ListRequests` | server/routers/RequestRoutes.js:57-95 | Unauthorized exactly when there is no principal; otherwise every request concerning the principal appears exactly once, newest first |
| `Reassignment.EntriesOf` | server/routers/reassignmentRoutes.js:32-46 | the entries of one request are exactly its items that are reassigned to the caller, each with the request's name, id and receiver |
| `Reassignment.ListFrom` | server/routers/reassignmentRoutes.js:21-47 | the entries are exactly the listed pairs from the start id on, grouped by request in natural order |
| `Reassignment.ListReassignedToMe` | server/routers/reassignmentRoutes.js:9-58 | the listing holds exactly the items whose target is the caller and whose status is `reassigned`, each paired with the name and id of a request that names it; Unauthorized only without a principal |
| `Reassignment.Mine` | server/routers/reassignmentRoutes.js:16-19 | an item is the caller's to resolve in the listing when its target is the caller and its status is `reassigned` |
| `Reassignment.Recompute` | server/routers/reassignmentRoutes.js:86-108 | the write after a resolution changes only the status of a request; every request other than the first one naming the item is unchanged; items, users and counters are unchanged |
| `Reassignment.Resolve` | server/routers/reassignmentRoutes.js:60-123 | NotFound exactly for an unknown item; Forbidden exactly when the item's target is not the caller, whatever its status; every failure leaves the store unchanged; success applies the decision's transition to that item alone; requests change at most in their status |
| `Reassignment.Accept` | server/routers/reassignmentRoutes.js:60-123 | succeeds exactly when the item exists and is reassigned to the caller; the item then becomes fulfilled, and the answer is its id with `fulfilled` |
| `Reassignment.Reject` | server/routers/reassignmentRoutes.js:125-184 | succeeds exactly when the item exists and is reassigned to the caller; the item then becomes pending, and the answer is its id with `pending` |
| `Properties.CreateKeepsValid` | server/routers/RequestRoutes.js:137-153 | create keeps the store well-formed: fresh ids lie below the counters and the new request names only existing items |
| `Properties.UpdateKeepsValid` | server/routers/RequestRoutes.js:201-260 | update keeps the store well-formed |
| `Properties.ResolveKeepsInvariants` | server/routers/reassignmentRoutes.js:79-83 | accept and reject keep the store well-formed and keep the reassignment rule on every item |
| `Properties.CreateIsConsistent` | server/routers/RequestRoutes.js:137-153 | a created request's `pending` status is the status its all-pending items derive |
| `Properties.CreateThenList` | server/routers/RequestRoutes.js:147-153 | after a create, the creator's listing shows the new request exactly once, `pending`, with its item ids in input order |
| `Properties.UpdateAllowedIffListed` | server/routers/RequestRoutes.js:185-200 | a principal is refused an update exactly on the requests its own listing does not show |
| `Properties.UpdateDirectOne` | server/routers/RequestRoutes.js:224-260 | one direct descriptor writes exactly that item, and the request ends with the status its items derive |
| `Properties.UpdateDirectRepeated` | server/routers/RequestRoutes.js:224-229 | the same direct descriptor given twice in one update succeeds and writes what one copy writes, because both read the snapshot |
| `Properties.UpdateStopsAtNullElement` | server/routers/RequestRoutes.js:202-203 | a `null` element after a direct descriptor fails the update with an internal error; the earlier write is kept and no request is written, the status included (the catch at `:271-276`) |
| `Properties.UpdateProposeOne` | server/routers/RequestRoutes.js:209-222 | one reassignment descriptor hands the item to a receiver target and recomputes the status; any other target fails with a validation error and nothing written |
| `Properties.UpdateOrphansAppendedItem` | server/routers/RequestRoutes.js:232-240 | a new-item descriptor creates the item at a fresh id, but the request's item list stays as it was |
| `Properties.ResolveRecomputesStatus` | server/routers/reassignmentRoutes.js:86-108 | after accept or reject, the first request naming the item holds the status its items derive by the `calculateRequestStatus` rule; other requests are untouched; when no request names the item, no request changes |
| `Properties.ResolveTwiceForbidden` | server/routers/reassignmentRoutes.js:74-83 | after a successful accept or reject, any later accept or reject of the item by anyone is Forbidden and changes nothing |
| `Properties.ListedCanBeResolved` | server/routers/reassignmentRoutes.js:16-19 | every listed item can be accepted or rejected by the receiver it is listed for |
| `Properties.ResolvedLeavesListing` | server/routers/reassignmentRoutes.js:139-148 | once resolved, the item no longer appears in the resolver's listing |
| `Scenarios.CreateOffice` | server/routers/RequestRoutes.js:97-165 | a concrete create stores two pending items at ids 0 and 1 and a pending request 0 naming them in order |
| `Scenarios.SetStatusStep` | server/routers/RequestRoutes.js:244-260 | on that store, a status-only descriptor changes that one item, and the request gets the status derived from the two items |
| `Scenarios.FulfilOneThenBoth` | server/routers/RequestRoutes.js:224-249 | fulfilling one of two items gives `partially_fulfilled`; fulfilling the other then gives `approved` |
| `Scenarios.ReassignDesk` | server/routers/RequestRoutes.js:209-222 | on the office store, a reassignment of the desk to receiver 3 succeeds, marks the desk `reassigned` to 3 with the reason as notes, and leaves the request `pending` |
| `Scenarios.AcceptDesk` | server/routers/reassignmentRoutes.js:60-123 | receiver 3's accept of the reassigned desk answers `fulfilled`, clears the target, makes the request `partially_fulfilled`, and a repeated accept is Forbidden |
| `Scenarios.ReassignThenAccept` | server/routers/reassignmentRoutes.js:60-123 | a reassigned item leaves the request `pending`; its acceptance gives `partially_fulfilled` and clears the target; a second accept is Forbidden |

## Left out

- Authentication and sessions: token verification and password hashing are foreign calls. The principal is an input, and `None` stands for a missing user.
- The broadcast `updateAll()` is a fire-and-forget side effect with no bearing on state. It is not modelled, including its early call in the reject handler.
- Concurrency: the handlers are modelled as sequential. Interleaved requests and lost updates are out of scope.
- Mongoose strict mode strips paths the schema does not declare. By that rule `reassignedTo` and `notes` would never be stored. The model stores the fields the routes write, as the routes evidently intend.
- Update descriptors carry typed `type` and `status` values. A string outside the enums is not modelled: the direct update would store it unvalidated, and `Item.create` would refuse it with an internal error. An element of `items` is `null` or an object; other non-object values (numbers, strings) read as objects without fields, that is as an empty new-item descriptor that does nothing.
- Create inputs are typed too. A `name` that is not a string and `items` that is not an array are not modelled, and quantities are integers (no fractions or NaN).
- `ObjectId.isValid` is abstracted as the `RawId` variants. A malformed id given to `findById` is modelled as the cast failure it raises (InternalError).
- A missing route parameter of accept or reject is treated like a malformed one.
- Response bodies: the model returns ids and entries, not populated JSON. The `originalReceiver` username is modelled as the receiver's id, and HTTP status codes are reduced to error kinds.
- `Workflow.ListRequests`: the order of requests with equal creation times is left unspecified, as the database leaves it; the contract states only newest-first and exactly-once.
- The unused reassignment schema and the unmounted duplicate reassignment router are not part of this model. Neither are the demo-seeding script, route mounting, or the item router's constant echo.

=== FILE: aggregator.dfy ===
/** The request aggregator: a request's status derived from the statuses of
    its items (server/routers/RequestRoutes.js, calculateRequestStatus, and
    the inline copies in server/routers/reassignmentRoutes.js). */
module Aggregator {
  import I = ItemModel
  import R = RequestModel

  /** `items.map(item => item.status)`. */
  function Statuses(items: seq<I.Item>): (ss: seq<I.ItemStatus>)
    ensures |ss| == |items|
    ensures forall k :: 0 <= k < |items| ==> ss[k] == items[k].status
  {
    if |items| == 0 then [] else [items[0].status] + Statuses(items[1..])
  }

  /** The number of `fulfilled` entries. */
  function FulfilledCount(ss: seq<I.ItemStatus>): (n: nat)
    ensures n <= |ss|
  {
    if |ss| == 0 then 0
    else (if ss[0] == I.Fulfilled then 1 else 0) + FulfilledCount(ss[1..])
  }

  predicate AllFulfilled(ss: seq<I.ItemStatus>)
  {
    forall k :: 0 <= k < |ss| ==> ss[k] == I.Fulfilled
  }

  predicate SomeFulfilled(ss: seq<I.ItemStatus>)
  {
    exists k :: 0 <= k < |ss| && ss[k] == I.Fulfilled
  }

  /** The count reaches the length exactly when every entry is fulfilled. */
  lemma {:induction false} CountIsLengthIffAll(ss: seq<I.ItemStatus>)
    ensures FulfilledCount(ss) == |ss| <==> AllFulfilled(ss)
  {
    if |ss| > 0 {
      CountIsLengthIffAll(ss[1..]);
      assert forall k :: 1 <= k < |ss| ==> ss[k] == ss[1..][k - 1];
    }
  }

  /** The count is zero exactly when no entry is fulfilled. */
  lemma {:induction false} CountIsZeroIffNone(ss: seq<I.ItemStatus>)
    ensures FulfilledCount(ss) == 0 <==> !SomeFulfilled(ss)
  {
    if |ss| > 0 {
      CountIsZeroIffNone(ss[1..]);
      assert forall k :: 1 <= k < |ss| ==> ss[k] == ss[1..][k - 1];
      if SomeFulfilled(ss[1..]) {
        var k :| 0 <= k < |ss[1..]| && ss[1..][k] == I.Fulfilled;
        assert ss[k + 1] == I.Fulfilled;
      }
    }
  }

  /** calculateRequestStatus: `pending` for an empty list or one with no
      fulfilled item, `approved` when every item is fulfilled, and
      `partially_fulfilled` when some but not all are. Out-of-stock and
      reassigned items count as not fulfilled. */
  function CalculateRequestStatus(ss: seq<I.ItemStatus>): (r: R.RequestStatus)
    ensures r == R.Approved <==> |ss| > 0 && AllFulfilled(ss)
    ensures r == R.PartiallyFulfilled <==> SomeFulfilled(ss) && !AllFulfilled(ss)
    ensures r == R.Pending <==> !SomeFulfilled(ss)
  {
    CountIsLengthIffAll(ss);
    CountIsZeroIffNone(ss);
    if |ss| == 0 then R.Pending
    else
      var fulfilled := FulfilledCount(ss);
      if fulfilled == |ss| then R.Approved
      else if fulfilled > 0 then R.PartiallyFulfilled
      else R.Pending
  }

  /** The copy written inline in the accept and reject handlers. It has no
      guard for the empty list, which therefore counts as all fulfilled. */
  function InlineRequestStatus(ss: seq<I.ItemStatus>): (r: R.RequestStatus)
    ensures r == R.Approved <==> AllFulfilled(ss)
    ensures r == R.PartiallyFulfilled <==> SomeFulfilled(ss) && !AllFulfilled(ss)
    ensures r == R.Pending <==> |ss| > 0 && !SomeFulfilled(ss)
  {
    CountIsLengthIffAll(ss);
    CountIsZeroIffNone(ss);
    var fulfilled := FulfilledCount(ss);
    if fulfilled == |ss| then R.Approved
    else if fulfilled > 0 then R.PartiallyFulfilled
    else R.Pending
  }

  /** The two versions agree exactly on the non-empty lists. */
  lemma InlineAgreesOnNonEmpty(ss: seq<I.ItemStatus>)
    ensures InlineRequestStatus(ss) == CalculateRequestStatus(ss) <==> |ss| > 0
  {
  }

  /** Changing one item's status to something other than `fulfilled` can never
      move the request to `approved`, and making it `fulfilled` can never move
      the request back to `pending`. */
  lemma {:induction false} SingleChangeMonotone(ss: seq<I.ItemStatus>, k: nat, st: I.ItemStatus)
    requires k < |ss|
    ensures st != I.Fulfilled ==> CalculateRequestStatus(ss[k := st]) != R.Approved
    ensures st == I.Fulfilled ==> CalculateRequestStatus(ss[k := st]) != R.Pending
  {
    var ss' := ss[k := st];
    assert ss'[k] == st;
    if st == I.Fulfilled {
      assert SomeFulfilled(ss');
    } else {
      assert !AllFulfilled(ss');
    }
  }
}

=== FILE: item.dfy ===
/** The item document: its enums, its fields and the validation Item.create
    applies (server/models/item.js). */
module ItemModel {
  import opened Types

  datatype ItemStatus = Pending | Fulfilled | OutOfStock | Reassigned

  datatype ItemType = Stationary | Electronics | Furniture | Other

  /** The stored spelling of an item type. */
  function TypeName(t: ItemType): string
  {
    match t
    case Stationary => "stationary"
    case Electronics => "electronics"
    case Furniture => "furniture"
    case Other => "other"
  }

  /** The enum validator of the `type` path: a string is accepted exactly when
      it is the spelling of one of the four types. */
  function ParseType(s: string): (r: Option<ItemType>)
    ensures r.Some? ==> TypeName(r.value) == s
    ensures r.None? ==> forall t :: TypeName(t) != s
  {
    if s == "stationary" then Some(Stationary)
    else if s == "electronics" then Some(Electronics)
    else if s == "furniture" then Some(Furniture)
    else if s == "other" then Some(Other)
    else None
  }

  /** An item as the routes read and write it. `reassignedTo` and `notes` are
      written by the routes but are not declared in the schema; an absent
      `notes` is the empty string. */
  datatype Item = Item(
    name: string,
    itemType: ItemType,
    quantity: int,
    status: ItemStatus,
    reassignedTo: Option<UserId>,
    notes: string)

  /** What the schema's validators demand of a stored item: a non-empty name
      (a required string) and a quantity of at least zero. */
  predicate SchemaValid(it: Item)
  {
    it.name != "" && it.quantity >= 0
  }

  /** Item.create: fills in the defaults (type `other`, status `pending`) and
      runs the validators, failing with a validation error. */
  function Construct(name: string, itemType: Option<ItemType>, quantity: int,
                     status: Option<ItemStatus>): (r: Result<Item>)
    ensures r.Ok? <==> name != "" && quantity >= 0
    ensures r.Err? ==> r.error == ValidationError
    ensures r.Ok? ==> SchemaValid(r.value)
    ensures r.Ok? ==> r.value.name == name && r.value.quantity == quantity
    ensures r.Ok? && itemType.None? ==> r.value.itemType == Other
    ensures r.Ok? && itemType.Some? ==> r.value.itemType == itemType.value
    ensures r.Ok? && status.None? ==> r.value.status == Pending
    ensures r.Ok? && status.Some? ==> r.value.status == status.value
    ensures r.Ok? ==> r.value.reassignedTo == None && r.value.notes == ""
  {
    if name == "" || quantity < 0 then Err(ValidationError)
    else
      var t := match itemType case Some(x) => x case None => Other;
      var st := match status case Some(x) => x case None => Pending;
      Ok(Item(name, t, quantity, st, None, ""))
  }
}

=== FILE: properties.dfy ===
/** Properties that relate several operations: the store invariant, the
    derived request status after every write, and the round trips between
    creating, listing, updating and resolving. */
module Properties {
  import opened Types
  import opened ItemModel
  import RM = RequestModel
  import Agg = Aggregator
  import T = Transitions
  import opened StoreModel
  import W = Workflow
  import RA = Reassignment

  // ---------------------------------------------------------------------
  // The store invariant
  // ---------------------------------------------------------------------

  lemma CreateKeepsValid(s: Store, who: Option<Principal>, name: string, receiver: RawId,
                         inputs: seq<W.ItemInput>, now: nat)
    requires Valid(s)
    ensures Valid(W.Create(s, who, name, receiver, inputs, now).store)
  {
    var rep := W.Create(s, who, name, receiver, inputs, now);
    if W.CreateAdmissible(s, who, name, receiver, inputs) {
      var b := W.CreateItems(s, inputs);
      assert forall i :: i in s.items ==> i in b.store.items;
      if rep.result.Ok? {
        var rid := rep.result.value;
        forall q, i | q in rep.store.requests && i in rep.store.requests[q].items
          ensures i in rep.store.items
        {
          if q == rid {
            var k :| 0 <= k < |rep.store.requests[rid].items| && rep.store.requests[rid].items[k] == i;
          }
        }
      }
    }
  }

  lemma UpdateKeepsValid(s: Store, who: Option<Principal>, id: RawId, name: string, receiver: RawId,
                         ds: seq<W.Descriptor>)
    requires Valid(s)
    ensures Valid(W.Update(s, who, id, name, receiver, ds).store)
  {
  }

  lemma ResolveKeepsInvariants(s: Store, who: Option<Principal>, itemId: RawId, d: RA.Decision)
    ensures Valid(s) ==> Valid(RA.Resolve(s, who, itemId, d).store)
    ensures ItemsConsistent(s) ==> ItemsConsistent(RA.Resolve(s, who, itemId, d).store)
  {
  }

  // ---------------------------------------------------------------------
  // Create
  // ---------------------------------------------------------------------

  /** A created request's stored status is the one its items derive. */
  lemma {:induction false} CreateIsConsistent(s: Store, who: Option<Principal>, name: string,
                                              receiver: RawId, inputs: seq<W.ItemInput>, now: nat)
    requires W.Create(s, who, name, receiver, inputs, now).result.Ok?
    ensures var rep := W.Create(s, who, name, receiver, inputs, now);
            StatusConsistent(rep.store, rep.result.value)
  {
    var rep := W.Create(s, who, name, receiver, inputs, now);
    var rid := rep.result.value;
    var ids := rep.store.requests[rid].items;
    assert |ids| == |inputs| > 0;
    assert forall k :: 0 <= k < |ids| ==> ids[k] in rep.store.items
                                          && rep.store.items[ids[k]].status == Pending;
    AllPendingIsConsistent(rep.store, rid);
  }

  /** A `pending` request whose items all exist and are all pending has the
      status they derive. */
  lemma AllPendingIsConsistent(s: Store, rid: ReqId)
    requires rid in s.requests && s.requests[rid].status == RM.Pending && |s.requests[rid].items| > 0
    requires forall k :: 0 <= k < |s.requests[rid].items| ==>
               s.requests[rid].items[k] in s.items && s.items[s.requests[rid].items[k]].status == Pending
    ensures StatusConsistent(s, rid)
  {
    var ids := s.requests[rid].items;
    assert forall i :: i in ids ==> i in s.items;
    var populated := Populate(s.items, ids);
    assert |populated| == |ids|;
    assert forall k :: 0 <= k < |populated| ==> populated[k].status == Pending;
    var ss := Agg.Statuses(populated);
    assert !Agg.SomeFulfilled(ss);
  }

  /** Creating and then listing as the creator shows the new request exactly
      once, `pending`, with its items in input order. */
  lemma CreateThenList(s: Store, p: Principal, name: string, receiver: RawId,
                       inputs: seq<W.ItemInput>, now: nat)
    requires W.Create(s, Some(p), name, receiver, inputs, now).result.Ok?
    ensures var rep := W.Create(s, Some(p), name, receiver, inputs, now);
            var rid := rep.result.value;
            var listed := W.ListRequests(rep.store, Some(p));
            && listed.Ok? && multiset(listed.value)[rid] == 1
            && rep.store.requests[rid].status == RM.Pending
            && forall k :: 0 <= k < |inputs| ==> rep.store.requests[rid].items[k] == s.nextItem + k
  {
  }

  // ---------------------------------------------------------------------
  // Update
  // ---------------------------------------------------------------------

  /** A principal may update exactly the requests its own listing shows. */
  lemma UpdateAllowedIffListed(s: Store, p: Principal, rid: ReqId, name: string, receiver: RawId,
                               ds: seq<W.Descriptor>)
    requires Valid(s) && rid in s.requests
    ensures W.Update(s, Some(p), Wellformed(rid), name, receiver, ds).result != Err(Forbidden)
            <==> multiset(W.ListRequests(s, Some(p)).value)[rid] == 1
  {
  }

  /** An update with one direct descriptor for an item of the request writes
      that item and leaves the request with the status its items derive. */
  lemma UpdateDirectOne(s: Store, p: Principal, rid: ReqId, d: W.Descriptor)
    requires rid in s.requests && W.Concerns(p, s.requests[rid])
    requires d.Descriptor? && d.id.Wellformed? && d.id.id in s.requests[rid].items && d.id.id in s.items
    requires !(d.status == Some(Reassigned) && d.reassignedTo != Missing)
    ensures var rep := W.Update(s, Some(p), Wellformed(rid), "", Missing, [d]);
            var n := d.id.id;
            && rep.result == Ok(rid)
            && rep.store.items == s.items[n := T.DirectUpdate(s.items[n], s.items[n],
                                                              T.Patch(d.name, d.itemType, d.quantity, d.status))]
            && StatusConsistent(rep.store, rid)
  {
    var snap := W.Snapshot(s, rid);
    var first := W.ApplyDescriptor(s, snap, d);
    assert W.ApplyDescriptors(s, snap, [d]) == W.ApplyDescriptors(first.store, snap, []);
  }

  /** The same direct descriptor given twice in one update succeeds and
      writes what one copy writes: the second copy reads the same snapshot. */
  lemma UpdateDirectRepeated(s: Store, p: Principal, rid: ReqId, d: W.Descriptor)
    requires rid in s.requests && W.Concerns(p, s.requests[rid])
    requires d.Descriptor? && d.id.Wellformed? && d.id.id in s.requests[rid].items && d.id.id in s.items
    requires !(d.status == Some(Reassigned) && d.reassignedTo != Missing)
    ensures var twice := W.Update(s, Some(p), Wellformed(rid), "", Missing, [d, d]);
            var once := W.Update(s, Some(p), Wellformed(rid), "", Missing, [d]);
            twice.result == Ok(rid) && twice.store == once.store
  {
    var snap := W.Snapshot(s, rid);
    var first := W.ApplyDescriptor(s, snap, d);
    var second := W.ApplyDescriptor(first.store, snap, d);
    assert [d, d][1..] == [d];
    assert W.ApplyDescriptors(s, snap, [d, d]) == W.ApplyDescriptors(first.store, snap, [d]);
    assert W.ApplyDescriptors(first.store, snap, [d]) == W.ApplyDescriptors(second.store, snap, []);
    assert W.ApplyDescriptors(s, snap, [d]) == W.ApplyDescriptors(first.store, snap, []);
    assert second.store == first.store;
  }

  /** A `null` element of the descriptor list makes the update fail with an
      internal error; the writes of the descriptors before it are kept and
      the request, its status included, is not written. */
  lemma UpdateStopsAtNullElement(s: Store, p: Principal, rid: ReqId, d: W.Descriptor)
    requires rid in s.requests && W.Concerns(p, s.requests[rid])
    requires d.Descriptor? && d.id.Wellformed? && d.id.id in s.requests[rid].items && d.id.id in s.items
    requires !(d.status == Some(Reassigned) && d.reassignedTo != Missing)
    ensures var rep := W.Update(s, Some(p), Wellformed(rid), "", Missing, [d, W.Nullish]);
            var n := d.id.id;
            && rep.result == Err(InternalError)
            && rep.store.items == s.items[n := T.DirectUpdate(s.items[n], s.items[n],
                                                              T.Patch(d.name, d.itemType, d.quantity, d.status))]
            && rep.store.requests == s.requests
  {
    var snap := W.Snapshot(s, rid);
    var first := W.ApplyDescriptor(s, snap, d);
    assert [d, W.Nullish][1..] == [W.Nullish];
    assert W.ApplyDescriptors(s, snap, [d, W.Nullish]) == W.ApplyDescriptors(first.store, snap, [W.Nullish]);
    assert W.ApplyDescriptors(first.store, snap, [W.Nullish]) == W.ApplyDescriptor(first.store, snap, W.Nullish);
  }

  /** An update with one reassignment descriptor: a target that is a receiver
      gets the item, anyone else makes the update fail with nothing written. */
  lemma UpdateProposeOne(s: Store, p: Principal, rid: ReqId, d: W.Descriptor)
    requires rid in s.requests && W.Concerns(p, s.requests[rid])
    requires d.Descriptor? && d.id.Wellformed? && d.id.id in s.requests[rid].items && d.id.id in s.items
    requires d.status == Some(Reassigned) && d.reassignedTo.Wellformed?
    ensures var rep := W.Update(s, Some(p), Wellformed(rid), "", Missing, [d]);
            var n := d.id.id;
            var u := d.reassignedTo.id;
            && (u in s.users && s.users[u] == Receiver ==>
                  && rep.result == Ok(rid)
                  && rep.store.items == s.items[n := T.Propose(s.items[n], u, d.reason)]
                  && StatusConsistent(rep.store, rid))
            && (!(u in s.users && s.users[u] == Receiver) ==> rep == Reply(s, Err(ValidationError)))
  {
    var snap := W.Snapshot(s, rid);
    var first := W.ApplyDescriptor(s, snap, d);
    if first.result.Ok? {
      assert W.ApplyDescriptors(s, snap, [d]) == W.ApplyDescriptors(first.store, snap, []);
    }
  }

  /** A new-item descriptor creates the item but the request does not name
      it: the id pushed onto the in-memory request is never saved. */
  lemma UpdateOrphansAppendedItem(s: Store, p: Principal, rid: ReqId, d: W.Descriptor)
    requires Valid(s) && rid in s.requests && W.Concerns(p, s.requests[rid])
    requires d.Descriptor? && !d.id.Wellformed? && d.name != "" && d.itemType.Some?
    requires d.quantity.Some? && d.quantity.value > 0
    ensures var rep := W.Update(s, Some(p), Wellformed(rid), "", Missing, [d]);
            && rep.result == Ok(rid)
            && s.nextItem in rep.store.items && s.nextItem !in s.items
            && rep.store.items[s.nextItem].name == d.name
            && rep.store.requests[rid].items == s.requests[rid].items
            && s.nextItem !in rep.store.requests[rid].items
  {
    var snap := W.Snapshot(s, rid);
    var first := W.ApplyDescriptor(s, snap, d);
    assert W.ApplyDescriptors(s, snap, [d]) == W.ApplyDescriptors(first.store, snap, []);
  }

  // ---------------------------------------------------------------------
  // Reassignment resolution
  // ---------------------------------------------------------------------

  /** After a successful accept or reject the first request naming the item
      holds the status its items derive, by the same rule as
      calculateRequestStatus; every other request is untouched, and when no
      request names the item only the item changes. */
  lemma {:induction false} ResolveRecomputesStatus(s: Store, who: Option<Principal>, itemId: RawId,
                                                   d: RA.Decision)
    requires RA.Resolve(s, who, itemId, d).result.Ok?
    ensures var rep := RA.Resolve(s, who, itemId, d);
            var n := itemId.id;
            match FindContaining(s, n)
            case None => rep.store.requests == s.requests
            case Some(q) =>
              && StatusConsistent(rep.store, q)
              && (forall p :: p in s.requests && p != q ==> rep.store.requests[p] == s.requests[p])
              && rep.store.requests[q].items == s.requests[q].items
  {
    var n := itemId.id;
    var t := s.(items := s.items[n := RA.Apply(d, s.items[n])]);
    assert FindContaining(t, n) == FindContaining(s, n);
    match FindContaining(s, n)
    case None =>
    case Some(q) =>
      var populated := Populate(t.items, t.requests[q].items);
      assert t.items[n] in populated;
      Agg.InlineAgreesOnNonEmpty(Agg.Statuses(populated));
  }

  /** Accept and reject are not idempotent: once an item is resolved, a
      second accept or reject by anyone is Forbidden and changes nothing. */
  lemma ResolveTwiceForbidden(s: Store, who: Option<Principal>, itemId: RawId, d: RA.Decision,
                              who2: Principal, d2: RA.Decision)
    requires RA.Resolve(s, who, itemId, d).result.Ok?
    ensures var once := RA.Resolve(s, who, itemId, d).store;
            RA.Resolve(once, Some(who2), itemId, d2) == Reply(once, Err(Forbidden))
  {
  }

  /** Every item the listing shows to a receiver can be accepted or rejected
      by that receiver. */
  lemma ListedCanBeResolved(s: Store, p: Principal, e: RA.Entry, d: RA.Decision)
    requires e in RA.ListReassignedToMe(s, Some(p)).value
    ensures RA.Resolve(s, Some(p), Wellformed(e.itemId), d).result == Ok((e.itemId, RA.Apply(d, e.item).status))
  {
  }

  /** After a resolution the item leaves the resolver's listing. */
  lemma ResolvedLeavesListing(s: Store, p: Principal, itemId: ItemId, d: RA.Decision, e: RA.Entry)
    requires RA.Resolve(s, Some(p), Wellformed(itemId), d).result.Ok?
    requires e.itemId == itemId
    ensures e !in RA.ListReassignedToMe(RA.Resolve(s, Some(p), Wellformed(itemId), d).store, Some(p)).value
  {
  }
}

=== FILE: reassignment.dfy ===
/** The reassignment routes of server/routers/reassignmentRoutes.js: the
    listing of items reassigned to the caller, and accept and reject. */
module Reassignment {
  import opened Types
  import opened ItemModel
  import RM = RequestModel
  import Agg = Aggregator
  import T = Transitions
  import opened StoreModel

  // ---------------------------------------------------------------------
  // Listing (`/all`)
  // ---------------------------------------------------------------------

  /** One element of the listing: the item with the name and id of a request
      that names it, and that request's receiver. */
  datatype Entry = Entry(itemId: ItemId, item: Item, requestName: string, requestId: ReqId,
                         originalReceiver: UserId)

  /** The item is reassigned to `me`. */
  predicate Mine(it: Item, me: UserId)
  {
    it.reassignedTo == Some(me) && it.status == Reassigned
  }

  /** `e` describes an item reassigned to `me`, named by request `q`. */
  predicate DescribesFor(s: Store, me: UserId, q: ReqId, e: Entry)
    requires q in s.requests
  {
    && e.requestId == q
    && e.requestName == s.requests[q].name && e.originalReceiver == s.requests[q].receiver
    && e.itemId in s.items && e.item == s.items[e.itemId] && Mine(e.item, me)
  }

  /** What the listing promises: every entry and only those. */
  predicate Listed(s: Store, me: UserId, e: Entry)
  {
    && e.requestId < s.nextRequest && e.requestId in s.requests
    && e.itemId in s.requests[e.requestId].items
    && DescribesFor(s, me, e.requestId, e)
  }

  /** The entries of one request, in the order of its item list. */
  function EntriesOf(s: Store, me: UserId, q: ReqId, ids: seq<ItemId>): (r: seq<Entry>)
    requires q in s.requests
    ensures forall e :: e in r <==> e.itemId in ids && DescribesFor(s, me, q, e)
  {
    if |ids| == 0 then []
    else
      var rest := EntriesOf(s, me, q, ids[1..]);
      assert forall i :: i in ids <==> i == ids[0] || i in ids[1..];
      var i := ids[0];
      if i in s.items && Mine(s.items[i], me) then
        [Entry(i, s.items[i], s.requests[q].name, q, s.requests[q].receiver)] + rest
      else rest
  }

  /** The entries of the requests from `q` on, in natural order. */
  function ListFrom(s: Store, me: UserId, q: nat): (r: seq<Entry>)
    decreases s.nextRequest - q
    ensures forall e :: e in r <==> q <= e.requestId && Listed(s, me, e)
    ensures forall i, j :: 0 <= i < j < |r| ==> r[i].requestId <= r[j].requestId
  {
    if q >= s.nextRequest then []
    else
      var rest := ListFrom(s, me, q + 1);
      if q in s.requests then
        var here := EntriesOf(s, me, q, s.requests[q].items);
        assert forall e :: e in here ==> e.requestId == q;
        here + rest
      else rest
  }

  /** `/all`: exactly the items reassigned to the caller (target and status
      both), each with the name and id of every request that names it,
      grouped by request in natural order. */
  function ListReassignedToMe(s: Store, who: Option<Principal>): (r: Result<seq<Entry>>)
    ensures r.Err? <==> who.None?
    ensures r.Err? ==> r.error == Unauthorized
    ensures r.Ok? ==> forall e :: e in r.value <==> Listed(s, who.value.id, e)
    ensures r.Ok? ==> forall i, j :: 0 <= i < j < |r.value| ==> r.value[i].requestId <= r.value[j].requestId
  {
    match who
    case None => Err(Unauthorized)
    case Some(p) => Ok(ListFrom(s, p.id, 0))
  }

  // ---------------------------------------------------------------------
  // Accept and reject (`/accept/:itemId`, `/reject/:itemId`)
  // ---------------------------------------------------------------------

  datatype Decision = AcceptIt | RejectIt

  /** The item transition a decision applies. */
  function Apply(d: Decision, it: Item): (r: Item)
    ensures T.ReassignConsistent(r) && r.reassignedTo == None && r.notes == ""
    ensures r.status == (if d == AcceptIt then Fulfilled else Pending)
  {
    match d
    case AcceptIt => T.Accept(it)
    case RejectIt => T.Reject(it)
  }

  /** The request status write that follows a resolution: the first request
      naming the item gets the status its items now derive. */
  function Recompute(t: Store, n: ItemId): (u: Store)
    ensures u.items == t.items && u.users == t.users
    ensures u.nextItem == t.nextItem && u.nextRequest == t.nextRequest
    ensures u.requests.Keys == t.requests.Keys
    ensures forall q :: q in t.requests ==> u.requests[q] == t.requests[q].(status := u.requests[q].status)
    ensures forall q :: q in t.requests && FindContaining(t, n) != Some(q) ==> u.requests[q] == t.requests[q]
  {
    match FindContaining(t, n)
    case None => t
    case Some(q) =>
      var req := t.requests[q];
      var status := Agg.InlineRequestStatus(Agg.Statuses(Populate(t.items, req.items)));
      t.(requests := t.requests[q := req.(status := status)])
  }

  /** The handler both routes share. Only `reassignedTo` is checked, not the
      status. */
  function Resolve(s: Store, who: Option<Principal>, itemId: RawId, d: Decision): (rep: Reply<(ItemId, ItemStatus)>)
    ensures who.None? ==> rep == Reply(s, Err(Unauthorized))
    ensures who.Some? && !itemId.Wellformed? ==> rep == Reply(s, Err(InternalError))
    ensures rep.result == Err(NotFound) <==> who.Some? && itemId.Wellformed? && itemId.id !in s.items
    ensures rep.result == Err(Forbidden) <==>
              who.Some? && itemId.Wellformed? && itemId.id in s.items
              && s.items[itemId.id].reassignedTo != Some(who.value.id)
    ensures rep.result.Err? ==> rep.store == s
    ensures rep.result.Ok? ==>
              var n := rep.result.value.0;
              && itemId == Wellformed(n) && n in s.items
              && rep.store.items == s.items[n := Apply(d, s.items[n])]
              && rep.result.value.1 == (if d == AcceptIt then Fulfilled else Pending)
    ensures rep.store.users == s.users && rep.store.requests.Keys == s.requests.Keys
    ensures forall q :: q in s.requests ==> rep.store.requests[q] == s.requests[q].(status := rep.store.requests[q].status)
    ensures rep.store.nextItem == s.nextItem && rep.store.nextRequest == s.nextRequest
  {
    if who.None? then Reply(s, Err(Unauthorized))
    else if !itemId.Wellformed? then Reply(s, Err(InternalError))
    else if itemId.id !in s.items then Reply(s, Err(NotFound))
    else if s.items[itemId.id].reassignedTo != Some(who.value.id) then Reply(s, Err(Forbidden))
    else
      var n := itemId.id;
      var it := Apply(d, s.items[n]);
      Reply(Recompute(s.(items := s.items[n := it]), n), Ok((n, it.status)))
  }

  /** `/accept/:itemId`: the item becomes fulfilled. */
  function Accept(s: Store, who: Option<Principal>, itemId: RawId): (rep: Reply<(ItemId, ItemStatus)>)
    ensures rep.result.Ok? <==> who.Some? && itemId.Wellformed? && itemId.id in s.items
                                && s.items[itemId.id].reassignedTo == Some(who.value.id)
    ensures rep.result.Ok? ==> rep.store.items == s.items[itemId.id := T.Accept(s.items[itemId.id])]
    ensures rep.result.Ok? ==> rep.result.value == (itemId.id, Fulfilled)
    ensures rep.result.Err? ==> rep.store == s
  {
    Resolve(s, who, itemId, AcceptIt)
  }

  /** `/reject/:itemId`: the item is pending again. */
  function Reject(s: Store, who: Option<Principal>, itemId: RawId): (rep: Reply<(ItemId, ItemStatus)>)
    ensures rep.result.Ok? <==> who.Some? && itemId.Wellformed? && itemId.id in s.items
                                && s.items[itemId.id].reassignedTo == Some(who.value.id)
    ensures rep.result.Ok? ==> rep.store.items == s.items[itemId.id := T.Reject(s.items[itemId.id])]
    ensures rep.result.Ok? ==> rep.result.value == (itemId.id, Pending)
    ensures rep.result.Err? ==> rep.store == s
  {
    Resolve(s, who, itemId, RejectIt)
  }
}

=== FILE: request.dfy ===
/** The request document (server/models/request.js). */
module RequestModel {
  import opened Types

  /** `Approved` is the label for "every item fulfilled". */
  datatype RequestStatus = Pending | Approved | PartiallyFulfilled

  /** A stored request. `items` is the ordered list of item ids; `createdAt`
      is the creation time as a natural-number timestamp. */
  datatype Request = Request(
    name: string,
    owner: UserId,
    receiver: UserId,
    items: seq<ItemId>,
    status: RequestStatus,
    createdAt: nat)

  /** Request.create with the schema defaults: status `pending`, and the
      creation time taken from the clock. */
  function NewRequest(name: string, owner: UserId, receiver: UserId,
                      items: seq<ItemId>, now: nat): (r: Request)
    ensures r.status == Pending && r.createdAt == now
    ensures r.owner == owner && r.receiver == receiver && r.items == items && r.name == name
  {
    Request(name, owner, receiver, items, Pending, now)
  }
}

=== FILE: scenarios.dfy ===
/** Worked scenarios over a concrete store: a request moves from `pending`
    through `partially_fulfilled` to `approved` as its receiver fulfils its
    items, and a reassigned item is accepted by its new receiver. */
module Scenarios {
  import opened Types
  import opened ItemModel
  import RM = RequestModel
  import Agg = Aggregator
  import T = Transitions
  import opened StoreModel
  import W = Workflow
  import RA = Reassignment
  import P = Properties

  /** Users 1 (an end user), 2 and 3 (receivers), and nothing else yet. */
  function Initial(): Store
  {
    Store(map[1 := EndUser, 2 := Receiver, 3 := Receiver], map[], map[], 0, 0)
  }

  function Inputs(): seq<W.ItemInput>
  {
    [W.ItemFields("pen", "stationary", Some(2)), W.ItemFields("desk", "furniture", Some(1))]
  }

  /** A descriptor that only sets an item's status. */
  function SetStatus(n: ItemId, st: ItemStatus): W.Descriptor
  {
    W.Descriptor(Wellformed(n), "", None, None, Some(st), Missing, "")
  }

  /** The request "office" with a pen and a desk, created by user 1 for
      receiver 2 at time 5. */
  lemma {:induction false} CreateOffice()
    ensures var c := W.Create(Initial(), Some(Principal(1, EndUser)), "office", Wellformed(2), Inputs(), 5);
            && c.result == Ok(0)
            && c.store.requests[0].status == RM.Pending
            && Office(c.store, Item("pen", Stationary, 2, Pending, None, ""), Item("desk", Furniture, 1, Pending, None, ""))
  {
    var s := Initial();
    OfficeInputsPass();
    var c := W.Create(s, Some(Principal(1, EndUser)), "office", Wellformed(2), Inputs(), 5);
    var ids := c.store.requests[0].items;
    assert ids == [0, 1];
    assert c.store.items.Keys == {0, 1};
  }

  /** The office name is not blank and both inputs pass their checks. */
  lemma OfficeInputsPass()
    ensures !W.Blank("office")
    ensures W.CheckItem(Inputs()[0]) == Ok(Item("pen", Stationary, 2, Pending, None, ""))
    ensures W.CheckItem(Inputs()[1]) == Ok(Item("desk", Furniture, 1, Pending, None, ""))
  {
    assert !W.IsTrimmed("office"[0]);
  }

  /** The store after CreateOffice, up to the two items' contents. */
  predicate Office(s: Store, pen: Item, desk: Item)
  {
    && s.users == Initial().users
    && s.requests.Keys == {0} && s.nextRequest == 1
    && s.requests[0].items == [0, 1] && s.requests[0].owner == 1 && s.requests[0].receiver == 2
    && s.items.Keys == {0, 1} && s.items[0] == pen && s.items[1] == desk
  }

  /** The statuses the office request derives from its two items. */
  lemma OfficeStatuses(s: Store, pen: Item, desk: Item)
    requires Office(s, pen, desk)
    ensures Agg.Statuses(ItemsOf(s, 0)) == [pen.status, desk.status]
  {
    assert Populate(s.items, [0, 1]) == [pen, desk];
  }

  /** Receiver 2 sets the status of one office item directly. */
  lemma {:induction false} SetStatusStep(s: Store, pen: Item, desk: Item, n: ItemId, st: ItemStatus)
    requires Office(s, pen, desk) && (n == 0 || n == 1) && st != Reassigned
    ensures var u := W.Update(s, Some(Principal(2, Receiver)), Wellformed(0), "", Missing, [SetStatus(n, st)]);
            var pen' := if n == 0 then pen.(status := st) else pen;
            var desk' := if n == 1 then desk.(status := st) else desk;
            && u.result == Ok(0)
            && Office(u.store, pen', desk')
            && u.store.requests[0].status == Agg.CalculateRequestStatus([pen'.status, desk'.status])
  {
    var d := SetStatus(n, st);
    var u := W.Update(s, Some(Principal(2, Receiver)), Wellformed(0), "", Missing, [d]);
    P.UpdateDirectOne(s, Principal(2, Receiver), 0, d);
    var written := T.DirectUpdate(s.items[n], s.items[n], T.Patch(d.name, d.itemType, d.quantity, d.status));
    assert written == s.items[n].(status := st);
    OfficeAfterWrite(s, u.store, pen, desk, n, written);
    var pen' := if n == 0 then pen.(status := st) else pen;
    var desk' := if n == 1 then desk.(status := st) else desk;
    OfficeStatuses(u.store, pen', desk');
  }

  /** An update that rewrites one office item and keeps everything else of
      the request leaves an office store. */
  lemma OfficeAfterWrite(s: Store, t: Store, pen: Item, desk: Item, n: ItemId, it: Item)
    requires Office(s, pen, desk) && (n == 0 || n == 1)
    requires t.users == s.users && t.requests.Keys == s.requests.Keys && t.nextRequest == s.nextRequest
    requires t.requests[0].items == s.requests[0].items
    requires t.requests[0].owner == s.requests[0].owner && t.requests[0].receiver == s.requests[0].receiver
    requires t.items == s.items[n := it]
    ensures Office(t, if n == 0 then it else pen, if n == 1 then it else desk)
  {
  }

  /** Scenario A: fulfilling the pen makes the request partially fulfilled,
      fulfilling the desk then approves it. */
  lemma {:induction false} FulfilOneThenBoth(s: Store)
    requires Office(s, Item("pen", Stationary, 2, Pending, None, ""), Item("desk", Furniture, 1, Pending, None, ""))
    ensures var u1 := W.Update(s, Some(Principal(2, Receiver)), Wellformed(0), "", Missing,
                               [SetStatus(0, Fulfilled)]);
            var u2 := W.Update(u1.store, Some(Principal(2, Receiver)), Wellformed(0), "", Missing,
                               [SetStatus(1, Fulfilled)]);
            && u1.result == Ok(0) && u1.store.requests[0].status == RM.PartiallyFulfilled
            && u2.result == Ok(0) && u2.store.requests[0].status == RM.Approved
  {
    var pen := Item("pen", Stationary, 2, Pending, None, "");
    var desk := Item("desk", Furniture, 1, Pending, None, "");
    SetStatusStep(s, pen, desk, 0, Fulfilled);
    var u1 := W.Update(s, Some(Principal(2, Receiver)), Wellformed(0), "", Missing, [SetStatus(0, Fulfilled)]);
    var ss1 := [Fulfilled, Pending];
    assert ss1[0] == Fulfilled && ss1[1] != Fulfilled;
    SetStatusStep(u1.store, pen.(status := Fulfilled), desk, 1, Fulfilled);
    var ss2 := [Fulfilled, Fulfilled];
    assert Agg.AllFulfilled(ss2);
  }

  /** The desk after receiver 2 hands it to receiver 3. */
  function MovedDesk(): Item
  {
    Item("desk", Furniture, 1, Reassigned, Some(3), "out of desks")
  }

  /** Scenario B: receiver 2 hands the desk to receiver 3; the request stays
      pending. */
  lemma {:induction false} ReassignDesk(s: Store)
    requires Office(s, Item("pen", Stationary, 2, Pending, None, ""), Item("desk", Furniture, 1, Pending, None, ""))
    ensures var move := W.Descriptor(Wellformed(1), "", None, None, Some(Reassigned), Wellformed(3), "out of desks");
            var u := W.Update(s, Some(Principal(2, Receiver)), Wellformed(0), "", Missing, [move]);
            && u.result == Ok(0)
            && Office(u.store, Item("pen", Stationary, 2, Pending, None, ""), MovedDesk())
            && u.store.requests[0].status == RM.Pending
  {
    var pen := Item("pen", Stationary, 2, Pending, None, "");
    var desk := Item("desk", Furniture, 1, Pending, None, "");
    var move := W.Descriptor(Wellformed(1), "", None, None, Some(Reassigned), Wellformed(3), "out of desks");
    P.UpdateProposeOne(s, Principal(2, Receiver), 0, move);
    var u := W.Update(s, Some(Principal(2, Receiver)), Wellformed(0), "", Missing, [move]);
    assert T.Propose(desk, 3, "out of desks") == MovedDesk();
    assert u.store.items == s.items[1 := MovedDesk()];
    OfficeAfterWrite(s, u.store, pen, desk, 1, MovedDesk());
    OfficeStatuses(u.store, pen, MovedDesk());
    var ss := [Pending, Reassigned];
    assert !Agg.SomeFulfilled(ss);
  }

  /** Scenario C: receiver 3 accepts the desk; the request becomes partially
      fulfilled, and a second accept is refused. */
  lemma {:induction false} AcceptDesk(t: Store)
    requires Office(t, Item("pen", Stationary, 2, Pending, None, ""), MovedDesk())
    ensures var a := RA.Accept(t, Some(Principal(3, Receiver)), Wellformed(1));
            && a.result == Ok((1, Fulfilled))
            && a.store.items[1].reassignedTo == None
            && a.store.requests[0].status == RM.PartiallyFulfilled
            && RA.Accept(a.store, Some(Principal(3, Receiver)), Wellformed(1)) == Reply(a.store, Err(Forbidden))
  {
    var pen := Item("pen", Stationary, 2, Pending, None, "");
    var who := Some(Principal(3, Receiver));
    var a := RA.Accept(t, who, Wellformed(1));
    P.ResolveRecomputesStatus(t, who, Wellformed(1), RA.AcceptIt);
    assert FindContaining(t, 1) == Some(0) by {
      assert FindFrom(t.requests, 1, 1, 0) == Some(0);
    }
    assert a.store.items == t.items[1 := T.Accept(MovedDesk())];
    OfficeAfterWrite(t, a.store, pen, MovedDesk(), 1, T.Accept(MovedDesk()));
    OfficeStatuses(a.store, pen, T.Accept(MovedDesk()));
    var ss' := [Pending, Fulfilled];
    assert ss'[1] == Fulfilled && ss'[0] != Fulfilled;
    P.ResolveTwiceForbidden(t, who, Wellformed(1), RA.AcceptIt, Principal(3, Receiver), RA.AcceptIt);
  }

  /** Scenarios B and C in sequence. */
  lemma {:induction false} ReassignThenAccept(s: Store)
    requires Office(s, Item("pen", Stationary, 2, Pending, None, ""), Item("desk", Furniture, 1, Pending, None, ""))
    ensures var move := W.Descriptor(Wellformed(1), "", None, None, Some(Reassigned), Wellformed(3), "out of desks");
            var u := W.Update(s, Some(Principal(2, Receiver)), Wellformed(0), "", Missing, [move]);
            var a := RA.Accept(u.store, Some(Principal(3, Receiver)), Wellformed(1));
            && u.result == Ok(0)
            && u.store.items[1].status == Reassigned && u.store.items[1].reassignedTo == Some(3)
            && u.store.requests[0].status == RM.Pending
            && a.result == Ok((1, Fulfilled))
            && a.store.items[1].reassignedTo == None
            && a.store.requests[0].status == RM.PartiallyFulfilled
            && RA.Accept(a.store, Some(Principal(3, Receiver)), Wellformed(1)) == Reply(a.store, Err(Forbidden))
  {
    var move := W.Descriptor(Wellformed(1), "", None, None, Some(Reassigned), Wellformed(3), "out of desks");
    ReassignDesk(s);
    AcceptDesk(W.Update(s, Some(Principal(2, Receiver)), Wellformed(0), "", Missing, [move]).store);
  }
}

=== FILE: store.dfy ===
/** The document store the routes read and write, as immutable maps, with the
    lookups they perform on it: `populate('items')` and
    `Request.findOne({ items: itemId })`. */
module StoreModel {
  import opened Types
  import opened ItemModel
  import RM = RequestModel
  import Agg = Aggregator
  import T = Transitions

  /** Users (only their roles matter here), items and requests, keyed by id.
      `nextItem` and `nextRequest` are the ids the next created documents
      get; natural order is ascending id. */
  datatype Store = Store(
    users: map<UserId, Role>,
    items: map<ItemId, Item>,
    requests: map<ReqId, RM.Request>,
    nextItem: nat,
    nextRequest: nat)

  /** The post-state of an operation together with its answer. The post-state
      is kept on failure too, because some handlers fail after writing. */
  datatype Reply<T> = Reply(store: Store, result: Result<T>)

  /** Ids lie below the counters and every item a request names exists. */
  predicate Valid(s: Store)
  {
    && (forall i :: i in s.items ==> i < s.nextItem)
    && (forall q :: q in s.requests ==> q < s.nextRequest)
    && (forall q, i :: q in s.requests && i in s.requests[q].items ==> i in s.items)
  }

  /** `populate('items')`: the items the ids name, in order, skipping ids that
      do not resolve. */
  function Populate(items: map<ItemId, Item>, ids: seq<ItemId>): (r: seq<Item>)
    ensures |r| <= |ids|
    ensures (forall i :: i in ids ==> i in items) ==>
              |r| == |ids| && forall k :: 0 <= k < |ids| ==> r[k] == items[ids[k]]
    ensures forall i :: i in ids && i in items ==> items[i] in r
  {
    if |ids| == 0 then []
    else
      var rest := Populate(items, ids[1..]);
      assert forall i :: i in ids[1..] ==> i in ids;
      if ids[0] in items then [items[ids[0]]] + rest else rest
  }

  /** The populated items of a request. */
  function ItemsOf(s: Store, q: ReqId): seq<Item>
    requires q in s.requests
  {
    Populate(s.items, s.requests[q].items)
  }

  /** A request's stored status is the one its current items derive. */
  predicate StatusConsistent(s: Store, q: ReqId)
  {
    q in s.requests
    && s.requests[q].status == Agg.CalculateRequestStatus(Agg.Statuses(ItemsOf(s, q)))
  }

  /** The first request, in natural order from `q` on, whose item list names
      `item`. */
  function FindFrom(requests: map<ReqId, RM.Request>, bound: nat, item: ItemId, q: nat): (r: Option<ReqId>)
    decreases bound - q
    ensures r.Some? ==> q <= r.value < bound && r.value in requests && item in requests[r.value].items
    ensures r.Some? ==> forall p :: q <= p < r.value && p in requests ==> item !in requests[p].items
    ensures r.None? ==> forall p :: q <= p < bound && p in requests ==> item !in requests[p].items
  {
    if q >= bound then None
    else if q in requests && item in requests[q].items then Some(q)
    else FindFrom(requests, bound, item, q + 1)
  }

  /** `Request.findOne({ items: itemId })`. */
  function FindContaining(s: Store, item: ItemId): (r: Option<ReqId>)
    ensures r.Some? ==> r.value in s.requests && item in s.requests[r.value].items
    ensures r.Some? ==> forall p :: p < r.value && p in s.requests ==> item !in s.requests[p].items
    ensures r.None? && Valid(s) ==> forall p :: p in s.requests ==> item !in s.requests[p].items
  {
    FindFrom(s.requests, s.nextRequest, item, 0)
  }

  /** Every item in the store keeps the reassignment rule. */
  predicate ItemsConsistent(s: Store)
  {
    forall i :: i in s.items ==> T.ReassignConsistent(s.items[i])
  }
}

=== FILE: transitions.dfy ===
/** The four item transitions as pure functions on an item:
    propose reassignment (handleItemReassignment), direct partial update,
    accept and reject. */
module Transitions {
  import opened Types
  import opened ItemModel

  /** The intended rule: an item names a reassignment target exactly when its
      status is `reassigned`. */
  predicate ReassignConsistent(it: Item)
  {
    it.reassignedTo.Some? <==> it.status == Reassigned
  }

  /** The fields the reassignment transitions leave alone. */
  predicate SameGoods(a: Item, b: Item)
  {
    a.name == b.name && a.itemType == b.itemType && a.quantity == b.quantity
  }

  /** Hand the item to another receiver, keeping the reason as its notes. */
  function Propose(it: Item, target: UserId, reason: string): (r: Item)
    ensures ReassignConsistent(r)
    ensures r.status == Reassigned && r.reassignedTo == Some(target) && r.notes == reason
    ensures SameGoods(it, r)
  {
    it.(status := Reassigned, reassignedTo := Some(target), notes := reason)
  }

  /** The target receiver accepts: the item is fulfilled and the
      reassignment is cleared. */
  function Accept(it: Item): (r: Item)
    ensures ReassignConsistent(r)
    ensures r.status == Fulfilled && r.reassignedTo == None && r.notes == ""
    ensures SameGoods(it, r)
  {
    it.(status := Fulfilled, reassignedTo := None, notes := "")
  }

  /** The target receiver rejects: the item is pending again and the
      reassignment is cleared. */
  function Reject(it: Item): (r: Item)
    ensures ReassignConsistent(r)
    ensures r.status == Pending && r.reassignedTo == None && r.notes == ""
    ensures SameGoods(it, r)
  {
    it.(status := Pending, reassignedTo := None, notes := "")
  }

  /** The fields a direct update may carry. An empty name and an absent or
      zero quantity are falsy and supply nothing. */
  datatype Patch = Patch(
    name: string,
    itemType: Option<ItemType>,
    quantity: Option<int>,
    status: Option<ItemStatus>)

  predicate QuantityTruthy(q: Option<int>)
  {
    q.Some? && q.value != 0
  }

  /** Every field of the patch is falsy. */
  predicate EmptyPatch(p: Patch)
  {
    p.name == "" && p.itemType.None? && !QuantityTruthy(p.quantity) && p.status.None?
  }

  /** The direct update: name, type, quantity and status are written as the
      supplied value when it is truthy and as the value in `snapshot` (the
      item as read before the update loop) otherwise. The other fields keep
      what is `stored`. */
  function DirectUpdate(stored: Item, snapshot: Item, p: Patch): (r: Item)
    ensures r.reassignedTo == stored.reassignedTo && r.notes == stored.notes
    ensures p.name != "" ==> r.name == p.name
    ensures p.name == "" ==> r.name == snapshot.name
    ensures p.itemType.Some? ==> r.itemType == p.itemType.value
    ensures p.itemType.None? ==> r.itemType == snapshot.itemType
    ensures QuantityTruthy(p.quantity) ==> r.quantity == p.quantity.value
    ensures !QuantityTruthy(p.quantity) ==> r.quantity == snapshot.quantity
    ensures p.quantity == Some(0) ==> r.quantity == snapshot.quantity
    ensures p.status.Some? ==> r.status == p.status.value
    ensures p.status.None? ==> r.status == snapshot.status
    ensures EmptyPatch(p) ==> SameGoods(r, snapshot) && r.status == snapshot.status
  {
    stored.(
      name := if p.name != "" then p.name else snapshot.name,
      itemType := if p.itemType.Some? then p.itemType.value else snapshot.itemType,
      quantity := if QuantityTruthy(p.quantity) then p.quantity.value else snapshot.quantity,
      status := if p.status.Some? then p.status.value else snapshot.status)
  }

  /** Applying the same patch a second time changes nothing. */
  lemma DirectUpdateIdempotent(it: Item, p: Patch)
    ensures var once := DirectUpdate(it, it, p); DirectUpdate(once, once, p) == once
  {
  }

  /** A patch with only falsy values leaves the item as it is. */
  lemma EmptyPatchIsIdentity(it: Item, p: Patch)
    requires EmptyPatch(p)
    ensures DirectUpdate(it, it, p) == it
  {
  }

  /** The direct update does not keep the rule: setting status `reassigned`
      leaves `reassignedTo` empty, and moving a reassigned item to `fulfilled`
      leaves its target in place. */
  lemma DirectUpdateBreaksRule()
    ensures var it := Item("chair", Furniture, 1, Pending, None, "");
            ReassignConsistent(it)
            && !ReassignConsistent(DirectUpdate(it, it, Patch("", None, None, Some(Reassigned))))
    ensures var it := Item("chair", Furniture, 1, Reassigned, Some(7), "moved");
            ReassignConsistent(it)
            && !ReassignConsistent(DirectUpdate(it, it, Patch("", None, None, Some(Fulfilled))))
  {
  }

  /** The direct update writes a negative quantity, which the schema's
      minimum would refuse on create: its validators do not run here. */
  lemma DirectUpdateBreaksQuantityBound()
    ensures var it := Item("pen", Stationary, 3, Pending, None, "");
            SchemaValid(it) && !SchemaValid(DirectUpdate(it, it, Patch("", None, Some(-2), None)))
  {
  }
}

=== FILE: types.dfy ===
/** Identifiers, principals and operation outcomes shared by every module. */
module Types {

  /** Object ids of the three collections. The store hands them out in
      increasing order, so a smaller id means an older document. */
  type UserId = nat
  type ItemId = nat
  type ReqId = nat

  datatype Option<T> = None | Some(value: T)

  /** The failure kinds the route handlers distinguish. `InternalError` is an
      exception caught by a handler's catch-all (answered with status 500). */
  datatype Error = Unauthorized | Forbidden | NotFound | ValidationError | InternalError

  datatype Result<T> = Ok(value: T) | Err(error: Error)

  /** The role enum of the user schema. */
  datatype Role = EndUser | Receiver

  /** The authenticated user attached to an inbound operation. */
  datatype Principal = Principal(id: UserId, role: Role)

  /** An id as it arrives in a body or a path: absent or empty (falsy), not a
      well-formed object id, or a well-formed one. */
  datatype RawId = Missing | Malformed | Wellformed(id: nat)
}

=== FILE: workflow.dfy ===
/** The request workflow of server/routers/RequestRoutes.js: the `/add`,
    `/update` and `/all` handlers over the store. */
module Workflow {
  import opened Types
  import opened ItemModel
  import RM = RequestModel
  import Agg = Aggregator
  import T = Transitions
  import opened StoreModel

  // ---------------------------------------------------------------------
  // Authorization
  // ---------------------------------------------------------------------

  /** The request concerns the principal: an end user owns it, a receiver is
      its assigned receiver. It decides both who may update a request and
      which requests a principal lists. */
  predicate Concerns(p: Principal, r: RM.Request)
  {
    (p.role == EndUser ==> r.owner == p.id) && (p.role == Receiver ==> r.receiver == p.id)
  }

  // ---------------------------------------------------------------------
  // Create (`/add`)
  // ---------------------------------------------------------------------

  /** The characters String.prototype.trim removes. */
  predicate IsTrimmed(c: char)
  {
    || c == ' ' || c == '\t' || c == '\n' || c == '\r'
    || c == '\U{000B}' || c == '\U{000C}' || c == '\U{00A0}' || c == '\U{FEFF}'
    || c == '\U{1680}' || ('\U{2000}' <= c <= '\U{200A}')
    || c == '\U{2028}' || c == '\U{2029}' || c == '\U{202F}' || c == '\U{205F}'
    || c == '\U{3000}'
  }

  /** Empty after trimming (the empty name included). */
  predicate Blank(name: string)
  {
    forall k :: 0 <= k < |name| ==> IsTrimmed(name[k])
  }

  /** The trimmed characters removed from the front of a string. */
  function TrimStart(str: string): (r: string)
    ensures |r| <= |str| && r == str[|str| - |r|..]
    ensures forall k :: 0 <= k < |str| - |r| ==> IsTrimmed(str[k])
    ensures |r| > 0 ==> !IsTrimmed(r[0])
  {
    if |str| > 0 && IsTrimmed(str[0]) then TrimStart(str[1..]) else str
  }

  /** The trimmed characters removed from the back of a string. */
  function TrimEnd(str: string): (r: string)
    ensures |r| <= |str| && r == str[..|r|]
    ensures forall k :: |r| <= k < |str| ==> IsTrimmed(str[k])
    ensures |r| > 0 ==> !IsTrimmed(r[|r| - 1])
  {
    if |str| > 0 && IsTrimmed(str[|str| - 1]) then TrimEnd(str[..|str| - 1]) else str
  }

  /** String.prototype.trim: both ends stripped. */
  function Trim(str: string): string
  {
    TrimEnd(TrimStart(str))
  }

  /** `!name.trim()` holds exactly for the blank names. */
  lemma BlankIffTrimEmpty(name: string)
    ensures Blank(name) <==> Trim(name) == ""
  {
  }

  /** One element of the `items` array of a create request: not an object
      at all, or its name, raw type string and quantity, `None` when the
      quantity is not a number. */
  datatype ItemInput = NotAnObject | ItemFields(name: string, itemType: string, quantity: Option<int>)

  /** The checks one item goes through: the handler's own (an object with a
      name, a type and a numeric quantity), then Item.create's validators. */
  function CheckItem(input: ItemInput): (r: Result<Item>)
    ensures r.Ok? <==> input.ItemFields? && input.name != "" && input.quantity.Some?
                       && input.quantity.value >= 0 && ParseType(input.itemType).Some?
    ensures r.Ok? ==> SchemaValid(r.value) && r.value.status == Pending
    ensures r.Ok? ==> r.value.name == input.name && r.value.quantity == input.quantity.value
                      && TypeName(r.value.itemType) == input.itemType
    ensures r.Ok? ==> r.value.reassignedTo == None && r.value.notes == ""
  {
    match input
    case NotAnObject => Err(ValidationError)
    case ItemFields(name, itemType, quantity) =>
      if name == "" || itemType == "" || quantity.None? then Err(ValidationError)
      else match ParseType(itemType)
        case None => Err(ValidationError)
        case Some(t) => Construct(name, Some(t), quantity.value, Some(Pending))
  }

  /** The outcome of creating a batch of items: the store, the ids created in
      input order, and whether every input passed. */
  datatype Batch = Batch(store: Store, ids: seq<ItemId>, ok: bool)

  /** The items built from the inputs that pass their checks, in input
      order: the failing inputs are dropped. */
  function Passing(inputs: seq<ItemInput>): (r: seq<Item>)
    decreases |inputs|
    ensures |r| <= |inputs|
    ensures forall it :: it in r ==> SchemaValid(it) && it.status == Pending && it.reassignedTo == None
  {
    if |inputs| == 0 then []
    else
      var c := CheckItem(inputs[0]);
      (if c.Ok? then [c.value] else []) + Passing(inputs[1..])
  }

  /** The item creation of `/add`. Every input that passes its checks is
      created, in input order, whether or not another input fails. */
  function CreateItems(s: Store, inputs: seq<ItemInput>): (b: Batch)
    decreases |inputs|
    ensures b.store.users == s.users && b.store.requests == s.requests
    ensures b.store.nextRequest == s.nextRequest
    ensures b.ok <==> forall k :: 0 <= k < |inputs| ==> CheckItem(inputs[k]).Ok?
    ensures b.store.nextItem == s.nextItem + |b.ids|
    ensures forall k :: 0 <= k < |b.ids| ==> b.ids[k] == s.nextItem + k
    ensures forall k :: 0 <= k < |b.ids| ==> b.ids[k] in b.store.items
    ensures forall i :: i in b.store.items ==> i in s.items || s.nextItem <= i < b.store.nextItem
    ensures forall i :: i in s.items && i < s.nextItem ==> i in b.store.items && b.store.items[i] == s.items[i]
    ensures b.ok ==> |b.ids| == |inputs|
    ensures b.ok ==> forall k :: 0 <= k < |inputs| ==> b.store.items[b.ids[k]] == CheckItem(inputs[k]).value
  {
    if |inputs| == 0 then Batch(s, [], true)
    else
      var c := CheckItem(inputs[0]);
      var s1 := if c.Ok? then s.(items := s.items[s.nextItem := c.value], nextItem := s.nextItem + 1) else s;
      var rest := CreateItems(s1, inputs[1..]);
      assert forall k :: 1 <= k < |inputs| ==> inputs[k] == inputs[1..][k - 1];
      Batch(rest.store, (if c.Ok? then [s.nextItem] else []) + rest.ids, c.Ok? && rest.ok)
  }

  /** The created ids hold `items`, in order. */
  predicate Holds(b: Batch, items: seq<Item>)
  {
    && |b.ids| == |items|
    && forall k :: 0 <= k < |b.ids| ==> b.ids[k] in b.store.items && b.store.items[b.ids[k]] == items[k]
  }

  /** Whether or not the batch succeeds, the created ids hold exactly the
      items of the passing inputs, in input order. */
  lemma {:induction false} CreateItemsStoresPassing(s: Store, inputs: seq<ItemInput>)
    decreases |inputs|
    ensures Holds(CreateItems(s, inputs), Passing(inputs))
  {
    if |inputs| > 0 {
      var c := CheckItem(inputs[0]);
      var s1 := if c.Ok? then s.(items := s.items[s.nextItem := c.value], nextItem := s.nextItem + 1) else s;
      var rest := CreateItems(s1, inputs[1..]);
      var tail := Passing(inputs[1..]);
      CreateItemsStoresPassing(s1, inputs[1..]);
      var b := CreateItems(s, inputs);
      if c.Ok? {
        assert b.ids == [s.nextItem] + rest.ids && b.store == rest.store;
        assert Passing(inputs) == [c.value] + tail;
        assert s.nextItem in rest.store.items && rest.store.items[s.nextItem] == c.value by {
          assert s.nextItem in s1.items && s.nextItem < s1.nextItem;
        }
        HoldsCons(b, rest, s.nextItem, c.value, tail);
      } else {
        assert b.ids == rest.ids && b.store == rest.store;
        assert Passing(inputs) == tail;
      }
    }
  }

  lemma HoldsCons(b: Batch, rest: Batch, n: ItemId, it: Item, tail: seq<Item>)
    requires b.ids == [n] + rest.ids && b.store == rest.store
    requires n in rest.store.items && rest.store.items[n] == it
    requires Holds(rest, tail)
    ensures Holds(b, [it] + tail)
  {
    assert forall k :: 1 <= k < |b.ids| ==> b.ids[k] == rest.ids[k - 1];
  }

  /** Every reason for `/add` to refuse before it creates anything. */
  predicate CreateAdmissible(s: Store, who: Option<Principal>, name: string, receiver: RawId,
                             inputs: seq<ItemInput>)
  {
    && who.Some? && who.value.role == EndUser
    && !Blank(name)
    && receiver.Wellformed? && receiver.id in s.users
    && |inputs| > 0
  }

  /** `/add`: the acting end user creates a request with its items. On
      success the request is `pending`, owned by the actor, and lists the new
      item ids in input order. */
  function Create(s: Store, who: Option<Principal>, name: string, receiver: RawId,
                  inputs: seq<ItemInput>, now: nat): (rep: Reply<ReqId>)
    ensures rep.result.Ok? <==> CreateAdmissible(s, who, name, receiver, inputs)
                                && forall k :: 0 <= k < |inputs| ==> CheckItem(inputs[k]).Ok?
    ensures !CreateAdmissible(s, who, name, receiver, inputs) ==> rep.store == s
    ensures who.None? ==> rep.result == Err(Unauthorized)
    ensures who.Some? && who.value.role != EndUser ==> rep.result == Err(Forbidden)
    ensures (who.Some? && who.value.role == EndUser
             && (Blank(name) || !receiver.Wellformed? || |inputs| == 0)) ==> rep == Reply(s, Err(ValidationError))
    ensures (who.Some? && who.value.role == EndUser && !Blank(name) && receiver.Wellformed? && |inputs| > 0
             && receiver.id !in s.users) ==> rep == Reply(s, Err(NotFound))
    ensures CreateAdmissible(s, who, name, receiver, inputs)
            && !(forall k :: 0 <= k < |inputs| ==> CheckItem(inputs[k]).Ok?) ==>
              rep.result == Err(ValidationError) && rep.store == CreateItems(s, inputs).store
    ensures rep.result.Err? ==> rep.store.requests == s.requests && rep.store.nextRequest == s.nextRequest
    ensures rep.store.users == s.users
    ensures forall i :: i in s.items && i < s.nextItem ==> i in rep.store.items && rep.store.items[i] == s.items[i]
    ensures rep.result.Ok? ==>
              var rid := rep.result.value;
              && rid == s.nextRequest && rid in rep.store.requests && rep.store.nextRequest == rid + 1
              && rep.store.requests == s.requests[rid := rep.store.requests[rid]]
              && var r := rep.store.requests[rid];
              && r.owner == who.value.id && r.receiver == receiver.id && r.name == name
              && r.status == RM.Pending && r.createdAt == now
              && |r.items| == |inputs|
              && (forall k :: 0 <= k < |inputs| ==> r.items[k] == s.nextItem + k)
              && (forall k :: 0 <= k < |inputs| ==>
                    r.items[k] in rep.store.items && rep.store.items[r.items[k]] == CheckItem(inputs[k]).value)
  {
    if who.None? then Reply(s, Err(Unauthorized))
    else if who.value.role != EndUser then Reply(s, Err(Forbidden))
    else if Blank(name) then Reply(s, Err(ValidationError))
    else if !receiver.Wellformed? then Reply(s, Err(ValidationError))
    else if |inputs| == 0 then Reply(s, Err(ValidationError))
    else if receiver.id !in s.users then Reply(s, Err(NotFound))
    else
      var b := CreateItems(s, inputs);
      if !b.ok then Reply(b.store, Err(ValidationError))
      else
        var rid := b.store.nextRequest;
        var req := RM.NewRequest(name, who.value.id, receiver.id, b.ids, now);
        Reply(b.store.(requests := b.store.requests[rid := req], nextRequest := rid + 1), Ok(rid))
  }

  // ---------------------------------------------------------------------
  // Update (`/update`)
  // ---------------------------------------------------------------------

  /** One element of the `items` array of an update request: `null` (or
      `undefined`), whose `id` cannot be read, or an object. An object that is
      not named by a well-formed id is a new-item descriptor. */
  datatype Descriptor =
    | Nullish
    | Descriptor(id: RawId, name: string, itemType: Option<ItemType>, quantity: Option<int>,
                 status: Option<ItemStatus>, reassignedTo: RawId, reason: string)

  /** The request's populated items as read before the descriptor loop. */
  function Snapshot(s: Store, rid: ReqId): (m: map<ItemId, Item>)
    requires rid in s.requests
    ensures forall i :: i in m <==> i in s.requests[rid].items && i in s.items
    ensures forall i :: i in m ==> m[i] == s.items[i]
  {
    map i | i in s.requests[rid].items && i in s.items :: s.items[i]
  }

  /** findByIdAndUpdate of one item: nothing happens when the id is unknown. */
  function WriteItem(s: Store, n: ItemId, it: Item): Store
  {
    if n in s.items then s.(items := s.items[n := it]) else s
  }

  /** Facts every descriptor step keeps: requests and users are untouched, and
      items only change or are added at fresh ids. */
  predicate Grows(s: Store, t: Store)
  {
    && t.requests == s.requests && t.users == s.users && t.nextRequest == s.nextRequest
    && s.nextItem <= t.nextItem
    && (forall i :: i in s.items ==> i in t.items)
    && (forall i :: i in t.items ==> i in s.items || s.nextItem <= i < t.nextItem)
  }

  /** One turn of the descriptor loop. */
  function ApplyDescriptor(s: Store, snapshot: map<ItemId, Item>, d: Descriptor): (rep: Reply<()>)
    ensures Grows(s, rep.store)
    ensures rep.result.Err? ==> rep.store == s && rep.result.error in {ValidationError, InternalError}
    ensures d.Nullish? ==> rep == Reply(s, Err(InternalError))
    ensures d.Descriptor? && d.id.Wellformed? && d.id.id !in snapshot ==> rep == Reply(s, Ok(()))
    ensures d.Descriptor? && d.id.Wellformed? && d.id.id in snapshot && d.id.id in s.items
            && d.status == Some(Reassigned) && d.reassignedTo.Wellformed? ==>
              var u := d.reassignedTo.id;
              (rep.result.Ok? <==> u in s.users && s.users[u] == Receiver)
              && (rep.result.Ok? ==>
                    rep.store.items == s.items[d.id.id := T.Propose(s.items[d.id.id], u, d.reason)])
    ensures d.Descriptor? && d.id.Wellformed? && d.id.id in snapshot && d.id.id in s.items
            && !(d.status == Some(Reassigned) && d.reassignedTo != Missing) ==>
              rep.store.items == s.items[d.id.id := T.DirectUpdate(s.items[d.id.id], snapshot[d.id.id],
                                                                    T.Patch(d.name, d.itemType, d.quantity, d.status))]
    ensures (d.Descriptor? && d.id.Wellformed? && d.id.id in snapshot
             && !(d.status == Some(Reassigned) && d.reassignedTo != Missing)) ==>
              && rep.result == Ok(()) && rep.store.nextItem == s.nextItem
              && (d.id.id !in s.items ==> rep.store == s)
    ensures d.Descriptor? && d.id.Wellformed? ==> rep.store.nextItem == s.nextItem
    ensures (d.Descriptor? && d.id.Wellformed? && d.id.id in snapshot
             && d.status == Some(Reassigned) && d.reassignedTo.Malformed?) ==> rep == Reply(s, Err(InternalError))
    ensures d.Descriptor? && !d.id.Wellformed? ==> rep.store.items.Keys <= s.items.Keys + {s.nextItem}
    ensures d.Descriptor? && !d.id.Wellformed? && !(d.name != "" && d.itemType.Some? && T.QuantityTruthy(d.quantity)) ==>
              rep == Reply(s, Ok(()))
    ensures d.Descriptor? && !d.id.Wellformed? && d.name != "" && d.itemType.Some? && d.quantity.Some? && d.quantity.value < 0 ==>
              rep == Reply(s, Err(InternalError))
    ensures d.Descriptor? && !d.id.Wellformed? && d.name != "" && d.itemType.Some? && d.quantity.Some? && d.quantity.value > 0 ==>
              && rep.result == Ok(())
              && rep.store.nextItem == s.nextItem + 1
              && rep.store.items == s.items[s.nextItem := Item(d.name, d.itemType.value, d.quantity.value,
                                                                if d.status.Some? then d.status.value else Pending,
                                                                None, "")]
    ensures forall i :: i in s.items && i < s.nextItem && !(d.Descriptor? && d.id.Wellformed? && i == d.id.id) ==>
              rep.store.items[i] == s.items[i]
    ensures forall i :: i in s.items && i < s.nextItem && i !in snapshot ==> rep.store.items[i] == s.items[i]
  {
    if d.Nullish? then Reply(s, Err(InternalError))
    else match d.id
    case Wellformed(n) =>
      if n !in snapshot then Reply(s, Ok(()))
      else if d.status == Some(Reassigned) && d.reassignedTo != Missing then
        match d.reassignedTo
        case Wellformed(u) =>
          if u in s.users && s.users[u] == Receiver then
            Reply(if n in s.items then WriteItem(s, n, T.Propose(s.items[n], u, d.reason)) else s, Ok(()))
          else Reply(s, Err(ValidationError))
        case _ => Reply(s, Err(InternalError))
      else
        var patch := T.Patch(d.name, d.itemType, d.quantity, d.status);
        Reply(if n in s.items then WriteItem(s, n, T.DirectUpdate(s.items[n], snapshot[n], patch)) else s, Ok(()))
    case _ =>
      if d.name != "" && d.itemType.Some? && T.QuantityTruthy(d.quantity) then
        var status := if d.status.Some? then d.status.value else Pending;
        match Construct(d.name, d.itemType, d.quantity.value, Some(status))
        case Ok(it) =>
          assert it == Item(d.name, d.itemType.value, d.quantity.value, status, None, "");
          // The new id is pushed onto an in-memory copy of the request that
          // is never saved: the item exists but no request names it.
          Reply(s.(items := s.items[s.nextItem := it], nextItem := s.nextItem + 1), Ok(()))
        case Err(_) => Reply(s, Err(InternalError))
      else Reply(s, Ok(()))
  }

  /** The descriptor loop, in list order, stopping at the first failure with
      the writes made so far kept. */
  function ApplyDescriptors(s: Store, snapshot: map<ItemId, Item>, ds: seq<Descriptor>): (rep: Reply<()>)
    decreases |ds|
    ensures Grows(s, rep.store)
    ensures rep.result.Err? ==> rep.result.error in {ValidationError, InternalError}
    ensures forall i :: i in s.items && i < s.nextItem && i !in snapshot ==> rep.store.items[i] == s.items[i]
  {
    if |ds| == 0 then Reply(s, Ok(()))
    else
      var first := ApplyDescriptor(s, snapshot, ds[0]);
      if first.result.Err? then first
      else ApplyDescriptors(first.store, snapshot, ds[1..])
  }

  /** The loop applies the descriptors in list order: one more descriptor
      at the end runs after all the others, and only when none of them
      failed. */
  lemma {:induction false} ApplyDescriptorsAppend(s: Store, snapshot: map<ItemId, Item>, ds: seq<Descriptor>,
                                                  d: Descriptor)
    decreases |ds|
    ensures ApplyDescriptors(s, snapshot, ds + [d])
            == (var r := ApplyDescriptors(s, snapshot, ds);
                if r.result.Err? then r else ApplyDescriptor(r.store, snapshot, d))
  {
    if |ds| == 0 {
      assert ds + [d] == [d];
      assert [d][1..] == [];
    } else {
      assert (ds + [d])[0] == ds[0];
      assert (ds + [d])[1..] == ds[1..] + [d];
      var first := ApplyDescriptor(s, snapshot, ds[0]);
      if first.result.Ok? {
        ApplyDescriptorsAppend(first.store, snapshot, ds[1..], d);
      }
    }
  }

  /** A failing loop stops at its first failing descriptor: every earlier
      one succeeded, and the store is the one that descriptor left, the
      writes before it kept. */
  lemma {:induction false} ApplyDescriptorsStopsAtFirstFailure(s: Store, snapshot: map<ItemId, Item>,
                                                               ds: seq<Descriptor>)
    decreases |ds|, 1
    ensures var rep := ApplyDescriptors(s, snapshot, ds);
            rep.result.Err? ==> FailsAt(s, snapshot, ds)
  {
    if |ds| > 0 && ApplyDescriptors(s, snapshot, ds).result.Err? {
      var init := ds[..|ds| - 1];
      var d := ds[|ds| - 1];
      assert ds == init + [d];
      if ApplyDescriptors(s, snapshot, init).result.Err? {
        FailureInPrefix(s, snapshot, init, d);
      } else {
        FailureAtEnd(s, snapshot, init, d);
      }
    }
  }

  /** Some descriptor k fails after every earlier one succeeded, and its
      failure is the loop's answer. */
  predicate FailsAt(s: Store, snapshot: map<ItemId, Item>, ds: seq<Descriptor>)
  {
    exists k :: 0 <= k < |ds|
      && ApplyDescriptors(s, snapshot, ds[..k]).result.Ok?
      && ApplyDescriptors(s, snapshot, ds)
         == ApplyDescriptor(ApplyDescriptors(s, snapshot, ds[..k]).store, snapshot, ds[k])
  }

  lemma {:induction false} FailureInPrefix(s: Store, snapshot: map<ItemId, Item>, init: seq<Descriptor>,
                                           d: Descriptor)
    decreases |init| + 1, 0
    requires ApplyDescriptors(s, snapshot, init).result.Err?
    ensures FailsAt(s, snapshot, init + [d])
  {
    ApplyDescriptorsAppend(s, snapshot, init, d);
    ApplyDescriptorsStopsAtFirstFailure(s, snapshot, init);
    var k :| 0 <= k < |init|
             && ApplyDescriptors(s, snapshot, init[..k]).result.Ok?
             && ApplyDescriptors(s, snapshot, init)
                == ApplyDescriptor(ApplyDescriptors(s, snapshot, init[..k]).store, snapshot, init[k]);
    var ds := init + [d];
    assert ApplyDescriptors(s, snapshot, ds) == ApplyDescriptors(s, snapshot, init);
    assert init[..k] == ds[..k] && init[k] == ds[k];
    WitnessFailure(s, snapshot, ds, k);
  }

  lemma FailureAtEnd(s: Store, snapshot: map<ItemId, Item>, init: seq<Descriptor>, d: Descriptor)
    requires ApplyDescriptors(s, snapshot, init).result.Ok?
    requires ApplyDescriptors(s, snapshot, init + [d]).result.Err?
    ensures FailsAt(s, snapshot, init + [d])
  {
    ApplyDescriptorsAppend(s, snapshot, init, d);
    var ds := init + [d];
    assert ds[..|init|] == init && ds[|init|] == d;
    WitnessFailure(s, snapshot, ds, |init|);
  }

  lemma WitnessFailure(s: Store, snapshot: map<ItemId, Item>, ds: seq<Descriptor>, k: nat)
    requires k < |ds|
    requires ApplyDescriptors(s, snapshot, ds[..k]).result.Ok?
    requires ApplyDescriptors(s, snapshot, ds)
             == ApplyDescriptor(ApplyDescriptors(s, snapshot, ds[..k]).store, snapshot, ds[k])
    ensures FailsAt(s, snapshot, ds)
  {
  }

  /** `/update`: checks the principal, the id and the authorization, applies
      the item descriptors, then writes the status derived from the request's
      items as they now are, a truthy name and a well-formed receiver. */
  function Update(s: Store, who: Option<Principal>, id: RawId, name: string, receiver: RawId,
                  ds: seq<Descriptor>): (rep: Reply<ReqId>)
    ensures who.None? ==> rep == Reply(s, Err(Unauthorized))
    ensures who.Some? && !id.Wellformed? ==> rep == Reply(s, Err(ValidationError))
    ensures who.Some? && id.Wellformed? && id.id !in s.requests ==> rep == Reply(s, Err(NotFound))
    ensures rep.result == Err(Forbidden) <==>
              who.Some? && id.Wellformed? && id.id in s.requests && !Concerns(who.value, s.requests[id.id])
    ensures rep.result == Err(Forbidden) ==> rep.store == s
    ensures who.Some? && id.Wellformed? && id.id in s.requests && Concerns(who.value, s.requests[id.id]) ==>
              var applied := ApplyDescriptors(s, Snapshot(s, id.id), ds);
              && (rep.result.Ok? <==> applied.result.Ok?)
              && rep.store.items == applied.store.items && rep.store.nextItem == applied.store.nextItem
              && (applied.result.Err? ==> rep == Reply(applied.store, Err(applied.result.error)))
    ensures rep.store.users == s.users && rep.store.requests.Keys == s.requests.Keys
    ensures rep.store.nextRequest == s.nextRequest && s.nextItem <= rep.store.nextItem
    ensures forall i :: i in s.items ==> i in rep.store.items
    ensures forall i :: i in rep.store.items ==> i in s.items || s.nextItem <= i < rep.store.nextItem
    ensures forall i :: i in s.items && i < s.nextItem
                        && !(id.Wellformed? && id.id in s.requests && i in s.requests[id.id].items) ==>
              rep.store.items[i] == s.items[i]
    ensures forall q :: q in s.requests ==> rep.store.requests[q].items == s.requests[q].items
    ensures forall q :: q in s.requests && !(id.Wellformed? && q == id.id) ==>
              rep.store.requests[q] == s.requests[q]
    ensures rep.result.Ok? ==>
              var rid := rep.result.value;
              && id == Wellformed(rid) && rid in s.requests
              && StatusConsistent(rep.store, rid)
              && var old_ := s.requests[rid];
              && var new_ := rep.store.requests[rid];
              && new_.items == old_.items && new_.owner == old_.owner && new_.createdAt == old_.createdAt
              && new_.name == (if name != "" then name else old_.name)
              && new_.receiver == (if receiver.Wellformed? then receiver.id else old_.receiver)
  {
    if who.None? then Reply(s, Err(Unauthorized))
    else if !id.Wellformed? then Reply(s, Err(ValidationError))
    else if id.id !in s.requests then Reply(s, Err(NotFound))
    else if !Concerns(who.value, s.requests[id.id]) then Reply(s, Err(Forbidden))
    else
      var rid := id.id;
      var applied := ApplyDescriptors(s, Snapshot(s, rid), ds);
      if applied.result.Err? then Reply(applied.store, Err(applied.result.error))
      else
        var t := applied.store;
        var req := t.requests[rid];
        var status := Agg.CalculateRequestStatus(Agg.Statuses(Populate(t.items, req.items)));
        var req' := req.(
          status := status,
          name := if name != "" then name else req.name,
          receiver := if receiver.Wellformed? then receiver.id else req.receiver);
        Reply(t.(requests := t.requests[rid := req']), Ok(rid))
  }

  // ---------------------------------------------------------------------
  // List (`/all`)
  // ---------------------------------------------------------------------

  /** The requests from `q` on, in natural order, that concern `p`. */
  function ConcerningFrom(s: Store, p: Principal, q: nat): (r: seq<ReqId>)
    decreases s.nextRequest - q
    ensures forall k :: 0 <= k < |r| ==> q <= r[k]
    ensures forall x :: multiset(r)[x] ==
              (if q <= x < s.nextRequest && x in s.requests && Concerns(p, s.requests[x]) then 1 else 0)
  {
    if q >= s.nextRequest then []
    else
      var rest := ConcerningFrom(s, p, q + 1);
      assert q !in rest;
      if q in s.requests && Concerns(p, s.requests[q]) then [q] + rest else rest
  }

  /** Newest first by creation time. */
  predicate NewestFirst(requests: map<ReqId, RM.Request>, xs: seq<ReqId>)
  {
    forall i, j :: 0 <= i < j < |xs| && xs[i] in requests && xs[j] in requests ==>
      requests[xs[i]].createdAt >= requests[xs[j]].createdAt
  }

  function InsertNewest(requests: map<ReqId, RM.Request>, x: ReqId, xs: seq<ReqId>): (r: seq<ReqId>)
    requires x in requests && forall y :: y in xs ==> y in requests
    ensures multiset(r) == multiset(xs) + multiset{x}
    ensures forall y :: y in r ==> y in xs || y == x
  {
    if |xs| == 0 then [x]
    else if requests[xs[0]].createdAt <= requests[x].createdAt then [x] + xs
    else
      assert forall y :: y in xs[1..] ==> y in xs;
      assert xs == [xs[0]] + xs[1..];
      [xs[0]] + InsertNewest(requests, x, xs[1..])
  }

  /** Inserting into a newest-first list keeps it newest first. */
  lemma {:induction false} InsertNewestSorted(requests: map<ReqId, RM.Request>, x: ReqId, xs: seq<ReqId>)
    requires x in requests && forall y :: y in xs ==> y in requests
    requires NewestFirst(requests, xs)
    ensures NewestFirst(requests, InsertNewest(requests, x, xs))
  {
    if |xs| > 0 && requests[xs[0]].createdAt > requests[x].createdAt {
      var h := xs[0];
      assert forall y :: y in xs[1..] ==> y in xs;
      assert NewestFirst(requests, xs[1..]) by {
        forall i, j | 0 <= i < j < |xs[1..]|
          ensures requests[xs[1..][i]].createdAt >= requests[xs[1..][j]].createdAt
        {
          assert xs[1..][i] == xs[i + 1] && xs[1..][j] == xs[j + 1];
        }
      }
      InsertNewestSorted(requests, x, xs[1..]);
      var rest := InsertNewest(requests, x, xs[1..]);
      forall y | y in rest
        ensures requests[y].createdAt <= requests[h].createdAt
      {
        if y != x {
          var m :| 0 <= m < |xs[1..]| && xs[1..][m] == y;
          assert xs[m + 1] == y;
        }
      }
      NewestFirstCons(requests, h, rest);
    }
  }

  /** A newest-first list stays newest first under a head no older than
      any of its elements. */
  lemma NewestFirstCons(requests: map<ReqId, RM.Request>, h: ReqId, rest: seq<ReqId>)
    requires h in requests && forall y :: y in rest ==> y in requests
    requires NewestFirst(requests, rest)
    requires forall y :: y in rest ==> requests[y].createdAt <= requests[h].createdAt
    ensures NewestFirst(requests, [h] + rest)
  {
    var r := [h] + rest;
    forall i, j | 0 <= i < j < |r|
      ensures requests[r[i]].createdAt >= requests[r[j]].createdAt
    {
      assert r[j] == rest[j - 1];
      if i > 0 {
        assert r[i] == rest[i - 1];
      }
    }
  }

  /** `.sort({ createdAt: -1 })`. */
  function SortNewest(requests: map<ReqId, RM.Request>, xs: seq<ReqId>): (r: seq<ReqId>)
    requires forall y :: y in xs ==> y in requests
    ensures multiset(r) == multiset(xs)
    ensures forall y :: y in r ==> y in requests
    ensures NewestFirst(requests, r)
  {
    if |xs| == 0 then []
    else
      assert forall y :: y in xs[1..] ==> y in xs;
      assert xs == [xs[0]] + xs[1..];
      var rest := SortNewest(requests, xs[1..]);
      InsertNewestSorted(requests, xs[0], rest);
      InsertNewest(requests, xs[0], rest)
  }

  /** A request the listing shows to `p`. */
  predicate Listable(s: Store, p: Principal, x: ReqId)
  {
    x < s.nextRequest && x in s.requests && Concerns(p, s.requests[x])
  }

  /** `/all`: every request that concerns the principal exactly once, newest
      first. */
  function ListRequests(s: Store, who: Option<Principal>): (r: Result<seq<ReqId>>)
    ensures r.Err? <==> who.None?
    ensures r.Err? ==> r.error == Unauthorized
    ensures r.Ok? ==> NewestFirst(s.requests, r.value)
    ensures r.Ok? ==> forall x :: multiset(r.value)[x] == (if Listable(s, who.value, x) then 1 else 0)
  {
    match who
    case None => Err(Unauthorized)
    case Some(p) =>
      var ids := ConcerningFrom(s, p, 0);
      assert forall y :: y in ids ==> y in s.requests by {
        forall y | y in ids ensures y in s.requests {
          assert multiset(ids)[y] > 0;
        }
      }
      Ok(SortNewest(s.requests, ids))
  }
}
